=== FILE: README.md ===
# Graph storage, partitioning and connected components

This project is a Dafny model of the core of a small Java graph-processing
library. The library has a compressed-sparse-column matrix, a streaming
edge-list matrix, a vertex-range parallel context and union-find connected
components. Each relax callback is replaced by the trace of the calls
`relax(src, dst)` it would receive. A traversal is then a `Run`: the calls it
made, in order, and the exception that ended it, if any. Threads are modelled
one after the other. Each thread contributes its own `Run`, because an
exception in a Java worker thread ends only that thread.

Modules, one file each:

- `Common` (`common.dfy`): the Java exceptions the code can raise, `Result`,
  `Run` and its sequencing `Then`/`ThenAll`, and sequence helpers.
- `JavaText` (`java_text.dfy`): covers four pieces of the Java library.
  - `Integer.parseInt` (radix 10, optional sign, 32-bit range).
  - `String.split(" ")`, including the dropped trailing empty fields.
  - `equalsIgnoreCase` against the header words.
  - The decimal text `Integer.toString` writes.
- `SparseMatrixCsc` (`sparse_matrix_csc.dfy`): covers the CSC matrix.
  - The line parser `readFile`, with the `-ea` ordinal assertion as a flag.
  - The compressed-column invariant.
  - A writer for CSC files.
  - `calculateOutDegree`, `edgemap` and `ranged_edgemap`.
- `SparseMatrixCsrCompetition` (`sparse_matrix_csr_competition.dfy`): covers
  the streaming matrix over the file's bytes.
  - The three-line header scan, with Java's signed bytes.
  - The `startingPos` boundary computation.
  - The per-thread byte slices.
  - The `ThreadSimple` tokenizer.
  - The two empty traversals.
- `DisjointSetCC` (`disjoint_set_cc.dfy`): covers union-find over a parent
  sequence.
  - `find` with path halving.
  - `union`, which links the smaller root under the larger.
  - The edge pass.
  - The post-pass that numbers the roots and counts class sizes.
  - `compute`, stated against connectivity in the undirected graph of the relax
    calls performed.
- `ParallelContextSimple` (`parallel_context_simple.dfy`): covers the
  parallel context.
  - `rangeLength`.
  - The `T` vertex ranges.
  - One `ranged_edgemap` run per thread over a CSC matrix.

Some behaviours of the code are worth stating up front:

- The ranges of `ParallelContextSimple` can run past vertex `n - 1`; see Findings.
- The CSC ordinal check is a Java `assert`, enforced only with `-ea`.
- The streaming matrix's `calculateOutDegree` and `ranged_edgemap` have empty
  bodies: they make no call and raise nothing.
- `ThreadSimple` separates tokens only by single spaces and newlines.
- An exception inside a worker thread ends only that thread. `compute` of the
  connected components therefore finishes even when some thread's `union` meets
  a vertex outside the graph.

## Model

| member | source | states |
|---|---|---|
| JavaText.ParseDecimalString | src/uk/ac/qub/csc3021/graph/SparseMatrixCSC.java:37 | `Integer.parseInt` reads back every 32-bit value from its decimal text |
| JavaText.SplitJoin | src/uk/ac/qub/csc3021/graph/SparseMatrixCSC.java:59 | `split(" ")` gives back non-empty space-free tokens joined by single spaces |
| SparseMatrixCsc.ReadHeader | src/uk/ac/qub/csc3021/graph/SparseMatrixCSC.java:33-52 | The header is accepted exactly when the first line is `CSC` or `CSC-CSR` in any case and the counts parse and can size both arrays. The result is then the two counts |
| SparseMatrixCsc.ReadFileSpec | src/uk/ac/qub/csc3021/graph/SparseMatrixCSC.java:40-72 | `readFile` succeeds exactly on well-formed files, whose header is good, whose first `n` vertex lines are present and parse (and carry the right ordinal when assertions are on), and whose sources fit in `m`. It then builds the matrix of the lines' source lists |
| SparseMatrixCsc.ReadFileResult | src/uk/ac/qub/csc3021/graph/SparseMatrixCSC.java:47-82 | A successful read leaves a valid matrix with the header counts as its vertex and edge counts. `index[i]` is the number of sources before line `i`, and `index[n] = m` however many sources were read. `sources` holds the sources of all lines in order, then zeros |
| SparseMatrixCsc.ReadFileColumns | src/uk/ac/qub/csc3021/graph/SparseMatrixCSC.java:51-71 | When the lines hold exactly `m` sources, `index[0] = 0` and `sources[index[i]..index[i+1])` is line `i`'s tokens after the first, in order |
| SparseMatrixCsc.ReadFileErrors | src/uk/ac/qub/csc3021/graph/SparseMatrixCSC.java:33-58 | A missing first line, a missing count line, or too few well-formed vertex lines is a premature end of file. Any first line other than the two header words is a header error |
| SparseMatrixCsc.FormatRoundTrip | src/uk/ac/qub/csc3021/graph/SparseMatrixCSC.java:40-72 | Reading back the file written for adjacency lists gives the matrix with those lists as its columns, with or without assertions |
| SparseMatrixCsc.RangedEdgeMapSpec | src/uk/ac/qub/csc3021/graph/SparseMatrixCSC.java:105-117 | Within the vertices, `ranged_edgemap(from, to)` raises nothing. It calls relax once per stored source from `index[from]` to `index[to+1]`, in storage order, with the vertex whose column holds it as destination |
| SparseMatrixCsc.RangedEdgeMapOutOfRange | src/uk/ac/qub/csc3021/graph/SparseMatrixCSC.java:112-116 | A range reaching outside the vertices makes the calls of the existing vertices before the first missing one, then raises an index out of bounds |
| SparseMatrixCsc.RangedEdgeMapSplit | src/uk/ac/qub/csc3021/graph/SparseMatrixCSC.java:112-116 | `ranged_edgemap(a, b)` then `ranged_edgemap(b+1, c)` makes the same calls and has the same outcome as `ranged_edgemap(a, c)` |
| SparseMatrixCsc.RangedEdgeMapFilter | src/uk/ac/qub/csc3021/graph/SparseMatrixCSC.java:94-117 | Within the vertices, `ranged_edgemap(from, to)` makes exactly the calls of `edgemap` whose destination lies in `[from, to]`, in order. An empty range makes none |
| SparseMatrixCsc.EdgeMap | src/uk/ac/qub/csc3021/graph/SparseMatrixCSC.java:94-103 | `edgemap` calls `(sources[j], i)` for `i` ascending and `j` ascending within column `i`, `index[n] - index[0]` calls in all. These are the calls of `ranged_edgemap(0, n-1)` |
| SparseMatrixCsc.CalculateOutDegree | src/uk/ac/qub/csc3021/graph/SparseMatrixCSC.java:85-92 | Adds to `outdeg[v]` the number of occurrences of `v` among the sources, so the total grows by `m`. It fails exactly when a source is outside the array, and then keeps the counts of the sources before it |
| SparseMatrixCsrCompetition.ScanHeader | src/uk/ac/qub/csc3021/graph/SparseMatrixCSRCompetition.java:59-79 | The byte loop agrees with reading three newline-terminated lines. The counts are accumulated from lines two and three, the body starts after the third newline, and fewer than three newlines is a buffer underflow |
| SparseMatrixCsrCompetition.HeaderRoundTrip | src/uk/ac/qub/csc3021/graph/SparseMatrixCSRCompetition.java:60-79 | For bytes `tag\nV\nE\n…`, where `V` and `E` are the decimal digits of two counts, the scan returns those counts whatever the tag holds. `startingPos[0]` is the offset past the third newline |
| SparseMatrixCsrCompetition.SnapForward | src/uk/ac/qub/csc3021/graph/SparseMatrixCSRCompetition.java:90-97 | The position reached is the first one after the candidate that is just past a newline or at the end of the file |
| SparseMatrixCsrCompetition.ComputeBoundaries | src/uk/ac/qub/csc3021/graph/SparseMatrixCSRCompetition.java:78-99 | The search fails with an illegal argument exactly when some candidate `startingPos[i - 1] + bufferSize` exceeds the largest int, since the 32-bit sum wraps to a negative position. Otherwise `startingPos` has `T + 1` entries, starting at the body and ending at the file size, and every interior entry is snapped forward from the candidate `bufferSize` bytes past the one before it |
| SparseMatrixCsrCompetition.BoundariesFacts | src/uk/ac/qub/csc3021/graph/SparseMatrixCSRCompetition.java:85-98 | The boundaries are non-decreasing and lie in `[startingPos[0], size]`. Every interior one is record-aligned |
| SparseMatrixCsrCompetition.WrapExample | src/uk/ac/qub/csc3021/graph/SparseMatrixCSRCompetition.java:85-89 | A 1,800,000,000-byte file whose body is one line, opened with three threads, reaches a candidate start past the largest int |
| SparseMatrixCsrCompetition.Open | src/uk/ac/qub/csc3021/graph/SparseMatrixCSRCompetition.java:45-105 | The constructor succeeds exactly when the header has three newlines, `T >= 1` with `T + 1` not wrapping around, and no boundary candidate wraps around. Each failure raises its own exception: buffer underflow, negative array size, index out of bounds, division by zero or illegal argument. On success the counts come from the header and the boundaries are as above |
| SparseMatrixCsrCompetition.PartitionsCover | src/uk/ac/qub/csc3021/graph/SparseMatrixCSRCompetition.java:148-157 | There is one slice `[startingPos[i], startingPos[i+1])` per thread, and together they are exactly the body after the header |
| SparseMatrixCsrCompetition.PartitionsAtLineEnds | src/uk/ac/qub/csc3021/graph/SparseMatrixCSRCompetition.java:85-98 | Every slice but the last ends with a newline, unless nothing follows it |
| SparseMatrixCsrCompetition.ToChar | src/uk/ac/qub/csc3021/graph/SparseMatrixCSRCompetition.java:202 | `(char)` of a buffer byte is a space or a newline exactly for those bytes. It is the signed byte taken modulo 2^16 |
| SparseMatrixCsrCompetition.TokenizeAppend | src/uk/ac/qub/csc3021/graph/SparseMatrixCSRCompetition.java:193-243 | The tokenizer is line-local. On `A ++ B` with `A` empty or newline-terminated, it is the run on `A` followed by the run on `B` |
| SparseMatrixCsrCompetition.TokenizeConcat | src/uk/ac/qub/csc3021/graph/SparseMatrixCSRCompetition.java:200-223 | Parts cut at line ends tokenize, one after another, exactly as their concatenation does |
| SparseMatrixCsrCompetition.StreamEdgeMapComplete | src/uk/ac/qub/csc3021/graph/SparseMatrixCSRCompetition.java:135-171 | The threads' runs in partition order are the run of the tokenizer over the whole body. No thread raises exactly when the body tokenizes, and then the threads' calls are the body's calls, as a sequence and as a multiset. No edge is lost or duplicated |
| SparseMatrixCsrCompetition.SourceOnlyLine | src/uk/ac/qub/csc3021/graph/SparseMatrixCSRCompetition.java:205-214 | A line holding only a source ends at its newline, makes no relax call, and the tokenizer goes on with the next line |
| SparseMatrixCsrCompetition.TokenizeEncode | src/uk/ac/qub/csc3021/graph/SparseMatrixCSRCompetition.java:201-223 | Well-formed lines `s d1 … dk\n` tokenize without an exception into `(s,d1)…(s,dk)`, lines in order. A line holding only a source makes no call |
| SparseMatrixCsrCompetition.StreamEdgeMapOfRecords | src/uk/ac/qub/csc3021/graph/SparseMatrixCSRCompetition.java:135-223 | On a body of well-formed lines no thread raises anything, and the threads together make every line's calls exactly once |
| SparseMatrixCsrCompetition.StreamCalculateOutDegree | src/uk/ac/qub/csc3021/graph/SparseMatrixCSRCompetition.java:125-132 | The empty `calculateOutDegree` leaves every count as it was |
| SparseMatrixCsrCompetition.StreamRangedEdgeMap | src/uk/ac/qub/csc3021/graph/SparseMatrixCSRCompetition.java:173-181 | The empty `ranged_edgemap` makes no relax call and raises nothing, for any range |
| DisjointSetCC.MakeSet | src/uk/ac/qub/csc3021/graph/DisjointSetCC.java:62-67 | After initialisation there are `n` singleton sets: every vertex is its own root, two vertices share a set only when equal, and `parent[i] >= i` holds |
| DisjointSetCC.Find | src/uk/ac/qub/csc3021/graph/DisjointSetCC.java:20-33 | `find(x)` returns the root `x` had before the call, which is a root afterwards too. It keeps `parent[i] >= i` and every vertex's root. It rewrites only vertices on the path of `x`, each to its grandparent |
| DisjointSetCC.Union | src/uk/ac/qub/csc3021/graph/DisjointSetCC.java:35-51 | Every class keeps its root except the classes of `x` and `y`, which now share the larger of their two roots. Two vertices are together afterwards exactly when they were before, or one was with `x` and the other with `y` |
| DisjointSetCC.MergedRootIsMax | src/uk/ac/qub/csc3021/graph/DisjointSetCC.java:43-48 | Linking the smaller root under the larger keeps every root the largest vertex of its class |
| DisjointSetCC.RelaxAll | src/uk/ac/qub/csc3021/graph/DisjointSetCC.java:15-17 | One thread's relax calls, each a `union`, on top of the sets built so far. The thread raises exactly when some call names a vertex outside `0..n-1`, and stops at the first such call. Afterwards two vertices share a root exactly when the calls made so far connect them as undirected edges |
| DisjointSetCC.RelaxThreads | src/uk/ac/qub/csc3021/graph/DisjointSetCC.java:78 | The edge pass through a threaded context: every thread performs its calls up to its own first out-of-range one, and the pass completes. Afterwards two vertices share a root exactly when the performed calls of all threads connect them |
| DisjointSetCC.AssignIds | src/uk/ac/qub/csc3021/graph/DisjointSetCC.java:88-92 | `ncc` is the number of roots, and the roots get the ids `0..ncc-1` in increasing vertex order. No root moves |
| DisjointSetCC.CountSizes | src/uk/ac/qub/csc3021/graph/DisjointSetCC.java:97-100 | `sizes` has `ncc` entries, each the number of vertices whose root has that id. They sum to `n` |
| DisjointSetCC.PostProcess | src/uk/ac/qub/csc3021/graph/DisjointSetCC.java:86-100 | There is one size per root, in increasing root order. Each is its class's size and at least one, and together they sum to `n` |
| DisjointSetCC.Compute | src/uk/ac/qub/csc3021/graph/DisjointSetCC.java:54-106 | A negative `n` fails the allocation. An exception thrown by the context's `edgemap` itself leaves `compute`, and so does an out-of-range vertex when the relax calls run in the caller's thread. In a worker thread such a vertex ends only that thread, and `compute` always completes. The result has one size per connected piece of the undirected graph of the calls performed, ordered by each piece's largest vertex. Each size is the piece's vertex count, at least one, and together they sum to `n` |
| DisjointSetCC.PerformedAllInRange | src/uk/ac/qub/csc3021/graph/DisjointSetCC.java:15-17 | When every relax call names vertices of the graph, the threads perform all of their calls, so `compute` describes the graph of all the calls |
| DisjointSetCC.SimpleContextPass | src/uk/ac/qub/csc3021/graph/ParallelContextSimple.java:31-67 | For `ParallelContextSimple` over a CSC matrix, no thread (`T <= 0`) makes `edgemap` throw before any relax call, and `compute` fails with that exception. With `T >= 1` the worker threads receive exactly the matrix's `edgemap` calls, and when those lie within the vertices `compute` builds on all of them |
| ParallelContextSimple.RangeLength | src/uk/ac/qub/csc3021/graph/ParallelContextSimple.java:35-37 | `rangeLength` is `n / T` rounded up: the least `r` with `r * T >= n` |
| ParallelContextSimple.Ranges | src/uk/ac/qub/csc3021/graph/ParallelContextSimple.java:44-52 | There are `T` ranges. The first starts at 0, the last ends at `n - 1`, and each starts just after the one before it ends |
| ParallelContextSimple.CoveredRangesInside | src/uk/ac/qub/csc3021/graph/ParallelContextSimple.java:44-52 | If `(T-1) * rangeLength <= n`, every range lies within `0..n-1`, so the ranges partition the vertices. The last range may be empty |
| ParallelContextSimple.RangesOverrun | src/uk/ac/qub/csc3021/graph/ParallelContextSimple.java:44-52 | Otherwise the range of thread `T - 2` is non-empty and ends at `n` or beyond |
| ParallelContextSimple.ParallelEdgeMap | src/uk/ac/qub/csc3021/graph/ParallelContextSimple.java:31-67 | A negative thread count fails the thread array, and zero fails `threads[T - 1]`. Otherwise exactly `T` threads run |
| ParallelContextSimple.ParallelEdgeMapCovered | src/uk/ac/qub/csc3021/graph/ParallelContextSimple.java:31-67 | Under the coverage condition the threads raise nothing. Run in order, they make exactly the calls of the CSC matrix's `edgemap` |
| ParallelContextSimple.ThreadCalls | src/uk/ac/qub/csc3021/graph/ParallelContextSimple.java:17-19 | Under the coverage condition, thread `i` makes exactly the calls of `edgemap` whose destination lies in its range |
| ParallelContextSimple.ParallelEdgeMapTrace | src/uk/ac/qub/csc3021/graph/ParallelContextSimple.java:44-52 | For every `T >= 1`, the threads' calls in thread order are the calls of `edgemap`, so none is lost or repeated. No thread raises exactly when the coverage condition holds |
| ParallelContextSimple.OverrunExample | src/uk/ac/qub/csc3021/graph/ParallelContextSimple.java:44-52 | With 5 vertices and 4 threads the ranges are `0..1`, `2..3`, `4..5` and `6..4`. The third thread handles vertex 4 and then raises an index out of bounds |
| ParallelContextSimple.ClampedEdgeMapComplete | src/uk/ac/qub/csc3021/graph/ParallelContextSimple.java:44-52 | With every range end clamped to `n - 1`, for every `T >= 1` the threads raise nothing. In order, they make exactly the calls of `edgemap` |

## Left out

- `PageRank.java` is not part of this model. It is floating-point power iteration with timing and exit codes.
- `ParallelContextSimpleCompetition.java` is not part of this model. It only delegates to the matrix's own `edgemap`.
- The abstract `SparseMatrix`, `Relax`, `ParallelContext` and `ParallelContextHolder` are not part of this model.
  - A relax callback is the trace of its calls.
  - `DisjointSetCC.Compute` takes what the context's `edgemap` does as a parameter: one trace of relax calls per worker thread, one trace run in the caller's thread, or an exception before any call.
- Concurrency: thread creation, `start`/`join` and interleavings are left out.
  - Threads run one after the other in thread order.
  - Every `compareAndSet` of union-find is a write that succeeds, as it does in a single thread.
  - The retry loop of `union` therefore runs once.
- File and stream I/O: `FileInputStream`, UTF-8 decoding, `BufferedReader`, `RandomAccessFile` and `FileChannel.map` are left out.
  - A CSC file is its sequence of lines.
  - A streaming file is its sequence of bytes.
  - A thread's mapped buffer is its slice.
- The constructors catch and print every `Exception`, leaving a half-built object. The model returns the exception as an error result instead.
  - The `AssertionError` of the CSC ordinal check is an `Error`, not an `Exception`: it is not caught and leaves the constructor. For that path the error result `AssertionFailed` is what Java does.
  - Out-of-memory errors, which are left out, would leave the constructors the same way.
  - What later calls on a half-built object would do is not modelled.
- Logging, timing and the `bufferSize` print in the streaming `edgemap` are left out, as are out-of-memory errors.
- The commented-out code of the streaming matrix is left out: the old constructor, its `getNext`, and the old byte tokenizer.
- The getters `getNumVertices`/`getNumEdges` are the `numVertices`/`numEdges` fields of the matrix datatypes.
- JavaText.ParseInt: does not accept the non-ASCII Unicode digits that `Integer.parseInt` also accepts, because the files are ASCII.
- JavaText.EqualsIgnoreCase: is stated only for the header words `CSC` and `CSC-CSR`, not as Java's general case-insensitive comparison.
- SparseMatrixCsrCompetition.ScanHeader: accumulates the count lines as unbounded integers.
  - It does not model 32-bit wrap-around of `vertices * 10 + b - 48` for count lines longer than ten digits.
  - It does not model the `(int)` cast of a file size of 2 GiB or more.
- ParallelContextSimple.Ranges: computes `i * rangeLength` and `from + rangeLength - 1` as unbounded integers.
  - It does not model 32-bit wrap-around, which needs more than 2^31 vertices in total.
- ParallelContextSimple.RangeLength: is the integer ceiling of `n / T`, not `Math.ceil` of a double quotient.
  - For 32-bit operands the double quotient never rounds across an integer, so the two agree.
  - That argument is not proved in the model.
- ParallelContextSimple.ParallelEdgeMap: is modelled only over a CSC matrix. With the streaming matrix, whose `ranged_edgemap` is empty, every thread makes no calls.

## Findings

| source | as written | input that shows it | evidently intended | confidence | as-written member | corrected member |
|---|---|---|---|---|---|---|
| src/uk/ac/qub/csc3021/graph/ParallelContextSimple.java:44-52 | Every range but the last is a full block `[i*rL, i*rL + rL - 1]`, even when that block ends at or past `n`. This happens exactly when `(T-1) * ceil(n/T) > n` | `n = 5`, `T = 4`: `rL = 2` and the ranges are `0..1`, `2..3`, `4..5`, `6..4`. Thread 2 relaxes vertex 4's edges, then reads `index[6]` for vertex 5 and dies with an ArrayIndexOutOfBoundsException | Ranges that partition `0..n-1` for every `T >= 1`, with each end clamped to `n - 1`, so that no thread raises | not executed | ParallelContextSimple.OverrunExample | ParallelContextSimple.ClampedEdgeMapComplete |

The overrun loses no relax call: `ParallelContextSimple.ParallelEdgeMapTrace`
proves the calls are those of `edgemap` for every thread count. The defect is
the uncaught exception in a worker thread whenever the coverage condition
fails.

=== FILE: common.dfy ===
/**
 Shared vocabulary of the graph model: the error conditions the Java code can
 raise, a result type carrying them, the relax trace, and a few sequence
 helpers (sums, searching, flattening) used by every other module.
 */
module Common {

  /** Optional value, used where the Java code returns null or fails softly. */
  datatype Option<T> = None | Some(value: T)

  /** The exceptions the modelled Java code can throw. */
  datatype Error =
    | PrematureEndOfFile     // the "premature end of file" exception
    | HeaderFormat           // the "file format error -- header" exception
    | NumberFormat           // NumberFormatException from Integer.parseInt
    | IndexOutOfBounds       // ArrayIndexOutOfBoundsException
    | NegativeArraySize      // NegativeArraySizeException
    | AssertionFailed        // AssertionError (only with assertions enabled)
    | BufferUnderflow        // BufferUnderflowException from ByteBuffer.get
    | DivisionByZero         // ArithmeticException from integer division
    | IllegalArgument        // IllegalArgumentException from Buffer.position

  /** Either a value or the exception that aborted the computation. */
  datatype Result<T> = Ok(value: T) | Err(error: Error)

  /** One call `relax.relax(src, dst)`. */
  type Edge = (int, int)

  /** The relax calls of a traversal, in the order they were made. */
  type Trace = seq<Edge>

  /** The relax calls a computation made, and the exception that ended it, if any. */
  datatype Run = Run(trace: Trace, error: Option<Error>)

  /** `x` followed by `y`, unless `x` already ended in an exception. */
  function Then(x: Run, y: Run): Run
  {
    if x.error.Some? then x else Run(x.trace + y.trace, y.error)
  }

  /** The calls `t` made before the run `r`. */
  function Prepend(t: Trace, r: Run): Run
  {
    Run(t + r.trace, r.error)
  }

  lemma ThenEmpty(x: Run)
    ensures Then(x, Run([], None)) == x
  {
    assert x.trace + [] == x.trace;
  }

  lemma EmptyThen(x: Run)
    ensures Then(Run([], None), x) == x
  {
    assert [] + x.trace == x.trace;
  }

  lemma PrependThen(t: Trace, x: Run, y: Run)
    ensures Then(Prepend(t, x), y) == Prepend(t, Then(x, y))
  {
    if x.error.None? {
      assert t + x.trace + y.trace == t + (x.trace + y.trace);
    }
  }

  lemma PrependPrepend(t: Trace, u: Trace, r: Run)
    ensures Prepend(t, Prepend(u, r)) == Prepend(t + u, r)
  {
    assert t + (u + r.trace) == t + u + r.trace;
  }

  /** The runs one after another, stopping at the first exception. */
  function ThenAll(runs: seq<Run>): Run
  {
    if runs == [] then Run([], None) else Then(runs[0], ThenAll(runs[1..]))
  }

  lemma ThenAllSuffix(runs: seq<Run>, k: int)
    requires 0 <= k < |runs|
    ensures ThenAll(runs[k..]) == Then(runs[k], ThenAll(runs[k + 1..]))
  {
    assert runs[k..][1..] == runs[k + 1..];
  }

  /** Chaining the runs from `k` on, given what run `k` and the runs after it amount to. */
  lemma ThenAllStep(runs: seq<Run>, k: int, head: Run, tail: Run, whole: Run)
    requires 0 <= k < |runs| && runs[k] == head && ThenAll(runs[k + 1..]) == tail && whole == Then(head, tail)
    ensures ThenAll(runs[k..]) == whole
  {
    ThenAllSuffix(runs, k);
  }

  /** The traces of the runs. */
  function Traces(runs: seq<Run>): (ts: seq<Trace>)
    ensures |ts| == |runs|
  {
    seq(|runs|, i requires 0 <= i < |runs| => runs[i].trace)
  }

  predicate NoErrors(runs: seq<Run>)
  {
    forall i :: 0 <= i < |runs| ==> runs[i].error.None?
  }

  /**
   Chaining runs raises nothing exactly when no run raises anything, and then
   its trace is the traces of the runs in order.
   */
  lemma {:induction false} ThenAllNoErrors(runs: seq<Run>)
    ensures ThenAll(runs).error.None? <==> NoErrors(runs)
    ensures NoErrors(runs) ==> ThenAll(runs).trace == Flatten(Traces(runs))
  {
    if runs != [] {
      ThenAllNoErrors(runs[1..]);
      assert Traces(runs)[1..] == Traces(runs[1..]);
      assert forall i :: 1 <= i < |runs| ==> runs[i] == runs[1..][i - 1];
    }
  }

  lemma MulMono(a: int, b: int, c: int)
    requires a <= b && c >= 0
    ensures a * c <= b * c
  {
  }

  /** Integer division of a non-negative number by a positive one stays between 0 and the number. */
  lemma DivBounds(a: int, t: int)
    requires a >= 0 && t >= 1
    ensures 0 <= a / t <= a
  {
    var q, r := a / t, a % t;
    assert a == t * q + r && 0 <= r < t;
    MulMono(1, t, q);
  }

  function Sum(s: seq<int>): int
  {
    if s == [] then 0 else s[0] + Sum(s[1..])
  }

  function Zeros(n: nat): (z: seq<int>)
    ensures |z| == n
    ensures forall i :: 0 <= i < n ==> z[i] == 0
  {
    seq(n, i => 0)
  }

  /** Incrementing one slot of an array increases its sum by exactly one. */
  lemma {:induction false} SumIncrement(s: seq<int>, k: int)
    requires 0 <= k < |s|
    ensures Sum(s[k := s[k] + 1]) == Sum(s) + 1
  {
    if k > 0 {
      assert s[k := s[k] + 1][1..] == s[1..][k - 1 := s[k] + 1];
      SumIncrement(s[1..], k - 1);
    } else {
      assert s[k := s[k] + 1][1..] == s[1..];
    }
  }

  lemma {:induction false} SumZeros(n: nat)
    ensures Sum(Zeros(n)) == 0
  {
    if n > 0 {
      assert Zeros(n)[1..] == Zeros(n - 1);
      SumZeros(n - 1);
    }
  }

  /** Position of the first occurrence of `x` in `s`, or `|s|` when there is none. */
  function IndexOf<T(==)>(s: seq<T>, x: T): (k: nat)
    ensures k <= |s|
    ensures k < |s| ==> s[k] == x
    ensures forall i :: 0 <= i < k ==> s[i] != x
    ensures k == |s| <==> x !in s
  {
    if s == [] then 0
    else if s[0] == x then 0
    else 1 + IndexOf(s[1..], x)
  }

  /** Concatenation of a sequence of sequences. */
  function Flatten<T>(ss: seq<seq<T>>): seq<T>
  {
    if ss == [] then [] else ss[0] + Flatten(ss[1..])
  }

  lemma {:induction false} FlattenSnoc<T>(ss: seq<seq<T>>, s: seq<T>)
    ensures Flatten(ss + [s]) == Flatten(ss) + s
  {
    if ss == [] {
      assert ss + [s] == [s];
    } else {
      assert (ss + [s])[1..] == ss[1..] + [s];
      FlattenSnoc(ss[1..], s);
    }
  }

  /** Every element of a part is an element of the flattened sequence. */
  lemma {:induction false} FlattenContains<T>(ss: seq<seq<T>>, i: int, k: int)
    requires 0 <= i < |ss| && 0 <= k < |ss[i]|
    ensures ss[i][k] in Flatten(ss)
    decreases i
  {
    if i > 0 {
      FlattenContains(ss[1..], i - 1, k);
    }
  }

  lemma {:induction false} FlattenAppend<T>(ss: seq<seq<T>>, tt: seq<seq<T>>)
    ensures Flatten(ss + tt) == Flatten(ss) + Flatten(tt)
  {
    if ss == [] {
      assert ss + tt == tt;
    } else {
      assert (ss + tt)[1..] == ss[1..] + tt;
      FlattenAppend(ss[1..], tt);
    }
  }
}

=== FILE: disjoint_set_cc.dfy ===
/**
 Connected components by union-find over the parent array, run in one
 thread: every `compareAndSet` is then a write that succeeds. The edges come
 from the context's edge map as traces of relax calls. The result is one size per component, in
 the order of the components' roots; a root is always the largest vertex of
 its component, because `union` links the smaller root under the larger.
 */
module DisjointSetCC {
  import opened Common
  import Csc = SparseMatrixCsc
  import Simple = ParallelContextSimple

  // ---------------------------------------------------------------------------
  // The parent array
  // ---------------------------------------------------------------------------

  /** Every entry points to itself or to a larger vertex, so parents never form a cycle. */
  predicate Forest(p: seq<int>)
  {
    forall i :: 0 <= i < |p| ==> i <= p[i] < |p|
  }

  /** The root of `x`: parents are followed until an entry points to itself. */
  function Root(p: seq<int>, x: int): (r: int)
    requires Forest(p) && 0 <= x < |p|
    ensures x <= r < |p| && p[r] == r
    decreases |p| - x
  {
    if p[x] == x then x else Root(p, p[x])
  }

  predicate SameSet(p: seq<int>, a: int, b: int)
    requires Forest(p) && 0 <= a < |p| && 0 <= b < |p|
  {
    Root(p, a) == Root(p, b)
  }

  /** `i` lies on the path from `x` to its root. */
  predicate OnPath(p: seq<int>, x: int, i: int)
    requires Forest(p) && 0 <= x < |p|
    decreases |p| - x
  {
    x == i || (p[x] != x && OnPath(p, p[x], i))
  }

  /** The initialisation loop of `compute`: `n` singleton sets, each vertex its own root. */
  function MakeSet(n: nat): (p: seq<int>)
    ensures |p| == n && Forest(p)
    ensures forall i :: 0 <= i < n ==> Root(p, i) == i
    ensures forall a, b :: 0 <= a < n && 0 <= b < n ==> (SameSet(p, a, b) <==> a == b)
  {
    seq(n, i => i)
  }

  /** The largest root of every class is above every member of the class. */
  predicate RootIsMax(p: seq<int>)
    requires Forest(p)
  {
    forall a, b :: 0 <= a < |p| && 0 <= b < |p| && SameSet(p, a, b) ==> b <= Root(p, a)
  }

  // ---------------------------------------------------------------------------
  // find
  // ---------------------------------------------------------------------------

  lemma {:induction false} OnPathNext(p: seq<int>, x: int, u: int)
    requires Forest(p) && 0 <= x < |p| && 0 <= u < |p|
    requires OnPath(p, x, u) && p[u] != u
    ensures OnPath(p, x, p[u])
    decreases |p| - x
  {
    if x != u {
      OnPathNext(p, p[x], u);
    }
  }

  /** Pointing `u` at its grandparent changes no root. */
  lemma {:induction false} ShortcutRoot(p: seq<int>, u: int, y: int)
    requires Forest(p) && 0 <= u < |p| && 0 <= y < |p|
    ensures Forest(p[u := p[p[u]]])
    ensures Root(p[u := p[p[u]]], y) == Root(p, y)
    decreases |p| - y
  {
    var q := p[u := p[p[u]]];
    if y == u {
      if p[u] != u && p[p[u]] != p[u] {
        ShortcutRoot(p, u, p[p[u]]);
      }
    } else if p[y] != y {
      ShortcutRoot(p, u, p[y]);
    }
  }

  lemma ShortcutRoots(p: seq<int>, u: int)
    requires Forest(p) && 0 <= u < |p|
    ensures Forest(p[u := p[p[u]]])
    ensures forall y :: 0 <= y < |p| ==> Root(p[u := p[p[u]]], y) == Root(p, y)
  {
    ShortcutRoot(p, u, u);
    forall y | 0 <= y < |p|
      ensures Root(p[u := p[p[u]]], y) == Root(p, y)
    {
      ShortcutRoot(p, u, y);
    }
  }

  /**
   `find(x)` with path halving: it walks from `x` towards the root, pointing
   each vertex it leaves at its grandparent. It returns the root of `x`, keeps
   the root of every vertex, and rewrites only vertices on the path of `x`,
   each to its grandparent.
   */
  method Find(p: seq<int>, x: int) returns (r: int, q: seq<int>)
    requires Forest(p) && 0 <= x < |p|
    ensures |q| == |p| && Forest(q)
    ensures r == Root(p, x) && q[r] == r
    ensures forall y :: 0 <= y < |p| ==> Root(q, y) == Root(p, y)
    ensures forall i :: 0 <= i < |p| ==> q[i] == p[i] || (OnPath(p, x, i) && q[i] == p[p[i]])
  {
    q := p;
    var u := x;
    while true
      invariant |q| == |p| && Forest(q) && x <= u < |p|
      invariant OnPath(p, x, u) && Root(p, u) == Root(p, x)
      invariant forall y :: 0 <= y < |p| ==> Root(q, y) == Root(p, y)
      invariant forall i :: 0 <= i < |p| ==> q[i] == p[i] || (i < u && OnPath(p, x, i) && q[i] == p[p[i]])
      decreases |p| - u
    {
      var v := q[u];
      var w := q[v];
      if v == w {
        return v, q;
      }
      ShortcutRoots(q, u);
      OnPathNext(p, x, u);
      q := q[u := w];
      u := v;
    }
  }

  // ---------------------------------------------------------------------------
  // union
  // ---------------------------------------------------------------------------

  /** The root a class has after joining the classes of `x` and `y`, given its root `r` before. */
  function Merged(p: seq<int>, x: int, y: int, r: int): int
    requires Forest(p) && 0 <= x < |p| && 0 <= y < |p|
  {
    var rx, ry := Root(p, x), Root(p, y);
    if r == rx || r == ry then (if rx < ry then ry else rx) else r
  }

  /** Linking root `a` under the larger root `b` moves exactly the class of `a` to `b`. */
  lemma {:induction false} LinkRoot(p: seq<int>, a: int, b: int, z: int)
    requires Forest(p) && 0 <= a < b < |p| && p[a] == a && p[b] == b && 0 <= z < |p|
    ensures Forest(p[a := b])
    ensures Root(p[a := b], z) == if Root(p, z) == a then b else Root(p, z)
    decreases |p| - z
  {
    if z != a && p[z] != z {
      LinkRoot(p, a, b, p[z]);
    }
  }

  lemma LinkRoots(p: seq<int>, a: int, b: int)
    requires Forest(p) && 0 <= a < b < |p| && p[a] == a && p[b] == b
    ensures Forest(p[a := b])
    ensures forall z :: 0 <= z < |p| ==> Root(p[a := b], z) == if Root(p, z) == a then b else Root(p, z)
  {
    forall z | 0 <= z < |p|
      ensures Root(p[a := b], z) == if Root(p, z) == a then b else Root(p, z)
    {
      LinkRoot(p, a, b, z);
    }
  }

  /** Roots moved as `Merged` says join exactly the classes of `x` and `y`. */
  lemma MergedSameSet(p: seq<int>, q: seq<int>, x: int, y: int, a: int, b: int)
    requires Forest(p) && Forest(q) && |q| == |p|
    requires 0 <= x < |p| && 0 <= y < |p| && 0 <= a < |p| && 0 <= b < |p|
    requires Root(q, a) == Merged(p, x, y, Root(p, a)) && Root(q, b) == Merged(p, x, y, Root(p, b))
    ensures SameSet(q, a, b) <==>
      SameSet(p, a, b) || (SameSet(p, a, x) && SameSet(p, y, b)) || (SameSet(p, a, y) && SameSet(p, x, b))
  {
  }

  lemma MergedSameSets(p: seq<int>, q: seq<int>, x: int, y: int)
    requires Forest(p) && Forest(q) && |q| == |p| && 0 <= x < |p| && 0 <= y < |p|
    requires forall z :: 0 <= z < |p| ==> Root(q, z) == Merged(p, x, y, Root(p, z))
    ensures forall a, b :: 0 <= a < |p| && 0 <= b < |p| ==>
      (SameSet(q, a, b) <==>
        SameSet(p, a, b) || (SameSet(p, a, x) && SameSet(p, y, b)) || (SameSet(p, a, y) && SameSet(p, x, b)))
  {
    forall a, b | 0 <= a < |p| && 0 <= b < |p|
      ensures SameSet(q, a, b) <==>
        SameSet(p, a, b) || (SameSet(p, a, x) && SameSet(p, y, b)) || (SameSet(p, a, y) && SameSet(p, x, b))
    {
      MergedSameSet(p, q, x, y, a, b);
    }
  }

  /** The link step of `union`: unless the roots are equal, the smaller is pointed at the larger. */
  function Link(p: seq<int>, u: int, v: int): (q: seq<int>)
    requires Forest(p) && 0 <= u < |p| && 0 <= v < |p| && p[u] == u && p[v] == v
    ensures |q| == |p| && Forest(q)
    ensures forall z :: 0 <= z < |p| ==>
      Root(q, z) == if Root(p, z) == u || Root(p, z) == v then (if u < v then v else u) else Root(p, z)
  {
    if u == v then p
    else if u < v then LinkRoots(p, u, v); p[u := v]
    else LinkRoots(p, v, u); p[v := u]
  }

  /**
   `union(x, y)`: the roots of `x` and `y` are found, one after the other, and
   unless they are equal the smaller is linked under the larger. Every class
   keeps its root except the two joined ones, which now share the larger of
   their roots; two vertices are in one set afterwards exactly when they were
   before or one was with `x` and the other with `y`.
   */
  method Union(p: seq<int>, x: int, y: int) returns (q: seq<int>)
    requires Forest(p) && 0 <= x < |p| && 0 <= y < |p|
    ensures |q| == |p| && Forest(q)
    ensures forall z :: 0 <= z < |p| ==> Root(q, z) == Merged(p, x, y, Root(p, z))
    ensures forall a, b :: 0 <= a < |p| && 0 <= b < |p| ==>
      (SameSet(q, a, b) <==>
        SameSet(p, a, b) || (SameSet(p, a, x) && SameSet(p, y, b)) || (SameSet(p, a, y) && SameSet(p, x, b)))
  {
    var u, p1 := Find(p, x);
    var v, p2 := Find(p1, y);
    q := Link(p2, u, v);
    MergedSameSets(p, q, x, y);
  }

  /** Joining two classes under the larger of their roots keeps every root the largest of its class. */
  lemma MergedRootIsMax(p: seq<int>, q: seq<int>, x: int, y: int)
    requires Forest(p) && Forest(q) && |q| == |p| && 0 <= x < |p| && 0 <= y < |p|
    requires RootIsMax(p)
    requires forall z :: 0 <= z < |p| ==> Root(q, z) == Merged(p, x, y, Root(p, z))
    ensures RootIsMax(q)
  {
    forall a, b | 0 <= a < |q| && 0 <= b < |q| && SameSet(q, a, b)
      ensures b <= Root(q, a)
    {
      assert SameSet(p, b, b);
      assert SameSet(p, a, b) || (SameSet(p, a, x) && SameSet(p, x, b)) || (SameSet(p, a, y) && SameSet(p, y, b))
        || (SameSet(p, a, x) && SameSet(p, y, b)) || (SameSet(p, a, y) && SameSet(p, x, b));
    }
  }

  // ---------------------------------------------------------------------------
  // Connectivity of a trace
  // ---------------------------------------------------------------------------

  /** `u` and `v` are the ends of some call of the trace, in either direction. */
  ghost predicate IsEdge(t: Trace, u: int, v: int)
  {
    exists k :: 0 <= k < |t| && (t[k] == (u, v) || t[k] == (v, u))
  }

  /** A walk along the edges of the trace, read as undirected. */
  ghost predicate IsWalk(t: Trace, w: seq<int>)
  {
    |w| >= 1 && forall i :: 0 <= i < |w| - 1 ==> IsEdge(t, w[i], w[i + 1])
  }

  /** `a` and `b` are joined by a walk. */
  ghost predicate Connected(t: Trace, a: int, b: int)
  {
    exists w :: IsWalk(t, w) && w[0] == a && w[|w| - 1] == b
  }

  lemma ConnectedRefl(t: Trace, a: int)
    ensures Connected(t, a, a)
  {
    assert IsWalk(t, [a]);
  }

  /** Two walks meeting along an edge make one walk. */
  lemma WalkJoin(t: Trace, w1: seq<int>, w2: seq<int>)
    requires IsWalk(t, w1) && IsWalk(t, w2) && IsEdge(t, w1[|w1| - 1], w2[0])
    ensures IsWalk(t, w1 + w2)
  {
    var w := w1 + w2;
    forall i | 0 <= i < |w| - 1
      ensures IsEdge(t, w[i], w[i + 1])
    {
      if i < |w1| - 1 {
        assert w[i] == w1[i] && w[i + 1] == w1[i + 1];
      } else if i >= |w1| {
        assert w[i] == w2[i - |w1|] && w[i + 1] == w2[i + 1 - |w1|];
      }
    }
  }

  lemma ConnectedStep(t: Trace, a: int, c: int, d: int)
    requires Connected(t, a, c) && IsEdge(t, c, d)
    ensures Connected(t, a, d)
  {
    var w :| IsWalk(t, w) && w[0] == a && w[|w| - 1] == c;
    WalkJoin(t, w, [d]);
    assert (w + [d])[0] == a;
  }

  lemma EdgeMono(t: Trace, e: Edge, u: int, v: int)
    requires IsEdge(t, u, v)
    ensures IsEdge(t + [e], u, v)
  {
    var k :| 0 <= k < |t| && (t[k] == (u, v) || t[k] == (v, u));
    assert (t + [e])[k] == t[k];
  }

  lemma WalkMono(t: Trace, e: Edge, w: seq<int>)
    requires IsWalk(t, w)
    ensures IsWalk(t + [e], w)
  {
    forall i | 0 <= i < |w| - 1
      ensures IsEdge(t + [e], w[i], w[i + 1])
    {
      EdgeMono(t, e, w[i], w[i + 1]);
    }
  }

  /** Connected in `t`, or through the new edge `x`-`y`. */
  ghost predicate Joined(t: Trace, x: int, y: int, a: int, b: int)
  {
    Connected(t, a, b) || (Connected(t, a, x) && Connected(t, y, b)) || (Connected(t, a, y) && Connected(t, x, b))
  }

  lemma JoinedOfConnected(t: Trace, x: int, y: int, a: int, b: int)
    requires Joined(t, x, y, a, b)
    ensures Connected(t + [(x, y)], a, b)
  {
    var t' := t + [(x, y)];
    assert IsEdge(t', x, y) && IsEdge(t', y, x) by {
      assert t'[|t|] == (x, y);
    }
    if Connected(t, a, b) {
      var w :| IsWalk(t, w) && w[0] == a && w[|w| - 1] == b;
      WalkMono(t, (x, y), w);
    } else if Connected(t, a, x) && Connected(t, y, b) {
      var w1 :| IsWalk(t, w1) && w1[0] == a && w1[|w1| - 1] == x;
      var w2 :| IsWalk(t, w2) && w2[0] == y && w2[|w2| - 1] == b;
      WalkMono(t, (x, y), w1);
      WalkMono(t, (x, y), w2);
      WalkJoin(t', w1, w2);
      assert (w1 + w2)[0] == a && (w1 + w2)[|w1 + w2| - 1] == b;
    } else {
      var w1 :| IsWalk(t, w1) && w1[0] == a && w1[|w1| - 1] == y;
      var w2 :| IsWalk(t, w2) && w2[0] == x && w2[|w2| - 1] == b;
      WalkMono(t, (x, y), w1);
      WalkMono(t, (x, y), w2);
      WalkJoin(t', w1, w2);
      assert (w1 + w2)[0] == a && (w1 + w2)[|w1 + w2| - 1] == b;
    }
  }

  /** Every walk using the new edge splits at it into walks of the old trace. */
  lemma {:induction false} WalkJoined(t: Trace, x: int, y: int, w: seq<int>)
    requires IsWalk(t + [(x, y)], w)
    ensures Joined(t, x, y, w[0], w[|w| - 1])
    decreases |w|
  {
    var a := w[0];
    if |w| == 1 {
      ConnectedRefl(t, a);
    } else {
      var init := w[..|w| - 1];
      assert IsWalk(t + [(x, y)], init) by {
        forall i | 0 <= i < |init| - 1
          ensures IsEdge(t + [(x, y)], init[i], init[i + 1])
        {
          assert init[i] == w[i] && init[i + 1] == w[i + 1];
        }
      }
      WalkJoined(t, x, y, init);
      var c, d := w[|w| - 2], w[|w| - 1];
      assert init[|init| - 1] == c;
      assert IsEdge(t + [(x, y)], c, d);
      var k :| 0 <= k < |t| + 1 && ((t + [(x, y)])[k] == (c, d) || (t + [(x, y)])[k] == (d, c));
      if k < |t| {
        assert IsEdge(t, c, d) by {
          assert t[k] == (c, d) || t[k] == (d, c);
        }
        if Connected(t, a, c) {
          ConnectedStep(t, a, c, d);
        } else if Connected(t, a, x) && Connected(t, y, c) {
          ConnectedStep(t, y, c, d);
        } else {
          ConnectedStep(t, x, c, d);
        }
      } else {
        ConnectedRefl(t, x);
        ConnectedRefl(t, y);
      }
    }
  }

  /** Adding the edge `x`-`y` connects exactly what is joined through it. */
  lemma ConnectedSnoc(t: Trace, x: int, y: int, a: int, b: int)
    ensures Connected(t + [(x, y)], a, b) <==> Joined(t, x, y, a, b)
  {
    if Connected(t + [(x, y)], a, b) {
      var w :| IsWalk(t + [(x, y)], w) && w[0] == a && w[|w| - 1] == b;
      WalkJoined(t, x, y, w);
    }
    if Joined(t, x, y, a, b) {
      JoinedOfConnected(t, x, y, a, b);
    }
  }

  lemma WalkHasEdge(t: Trace, w: seq<int>)
    requires IsWalk(t, w) && |w| > 1
    ensures |t| > 0
  {
    assert IsEdge(t, w[0], w[1]);
  }

  /** Without edges only a vertex and itself are connected. */
  lemma ConnectedEmpty(a: int, b: int)
    ensures Connected([], a, b) <==> a == b
  {
    if a == b {
      ConnectedRefl([], a);
    } else if Connected([], a, b) {
      var w :| IsWalk([], w) && w[0] == a && w[|w| - 1] == b;
      if |w| > 1 {
        WalkHasEdge([], w);
      }
    }
  }

  // ---------------------------------------------------------------------------
  // The edge pass
  // ---------------------------------------------------------------------------

  predicate EdgeIn(e: Edge, n: int)
  {
    0 <= e.0 < n && 0 <= e.1 < n
  }

  /** The sets of `p` are the connected pieces of `t`, and every root is the largest of its class. */
  ghost predicate Tracks(p: seq<int>, t: Trace)
  {
    && Forest(p)
    && RootIsMax(p)
    && forall a, b :: 0 <= a < |p| && 0 <= b < |p| ==> (SameSet(p, a, b) <==> Connected(t, a, b))
  }

  lemma TracksStart(n: nat)
    ensures Tracks(MakeSet(n), [])
  {
    var p := MakeSet(n);
    forall a, b | 0 <= a < n && 0 <= b < n
      ensures SameSet(p, a, b) <==> Connected([], a, b)
    {
      ConnectedEmpty(a, b);
    }
  }

  /** A union for the edge `x`-`y` keeps the sets in step with the trace. */
  lemma TracksUnion(p: seq<int>, q: seq<int>, t: Trace, x: int, y: int)
    requires Tracks(p, t) && Forest(q) && |q| == |p| && 0 <= x < |p| && 0 <= y < |p|
    requires forall z :: 0 <= z < |p| ==> Root(q, z) == Merged(p, x, y, Root(p, z))
    requires forall a, b :: 0 <= a < |p| && 0 <= b < |p| ==>
      (SameSet(q, a, b) <==>
        SameSet(p, a, b) || (SameSet(p, a, x) && SameSet(p, y, b)) || (SameSet(p, a, y) && SameSet(p, x, b)))
    ensures Tracks(q, t + [(x, y)])
  {
    MergedRootIsMax(p, q, x, y);
    forall a, b | 0 <= a < |p| && 0 <= b < |p|
      ensures SameSet(q, a, b) <==> Connected(t + [(x, y)], a, b)
    {
      ConnectedSnoc(t, x, y, a, b);
    }
  }

  /** Path halving moves no root, so the sets still follow the trace. */
  lemma TracksFind(p: seq<int>, q: seq<int>, t: Trace)
    requires Tracks(p, t) && Forest(q) && |q| == |p|
    requires forall y :: 0 <= y < |p| ==> Root(q, y) == Root(p, y)
    ensures Tracks(q, t)
  {
  }

  /** One `relax(x, y)` of the edge pass with both ends in range. */
  method RelaxEdge(q: seq<int>, t: Trace, x: int, y: int) returns (q': seq<int>)
    requires Tracks(q, t) && 0 <= x < |q| && 0 <= y < |q|
    ensures |q'| == |q| && Tracks(q', t + [(x, y)])
  {
    q' := Union(q, x, y);
    TracksUnion(q, q', t, x, y);
  }

  /**
   The calls of `t` before the first one with an end outside `0..n-1`: the
   unions a worker thread completes before `parent.get` throws and ends it.
   */
  function Performed(t: Trace, n: int): (u: Trace)
    ensures |u| <= |t| && u == t[..|u|]
    ensures forall k :: 0 <= k < |u| ==> EdgeIn(u[k], n)
    ensures |u| < |t| ==> !EdgeIn(t[|u|], n)
  {
    if t == [] || !EdgeIn(t[0], n) then [] else [t[0]] + Performed(t[1..], n)
  }

  /** A thread whose calls `t[..k]` are in range and whose call `t[k]` is not performs exactly `t[..k]`. */
  lemma {:induction false} PerformedAt(t: Trace, n: int, k: int)
    requires 0 <= k < |t| && !EdgeIn(t[k], n)
    requires forall j :: 0 <= j < k ==> EdgeIn(t[j], n)
    ensures Performed(t, n) == t[..k]
    decreases k
  {
    if k > 0 {
      PerformedAt(t[1..], n, k - 1);
      assert [t[0]] + t[1..][..k - 1] == t[..k];
    }
  }

  /** A thread whose calls are all in range performs all of them. */
  lemma {:induction false} PerformedAllCalls(t: Trace, n: int)
    requires forall j :: 0 <= j < |t| ==> EdgeIn(t[j], n)
    ensures Performed(t, n) == t
  {
    if t != [] {
      PerformedAllCalls(t[1..], n);
      assert [t[0]] + t[1..] == t;
    }
  }

  /**
   The edge pass of one worker thread: `relax(src, dst)` is `union(src, dst)`
   for each call of `t` in turn, on top of the sets built from `t0`. A vertex
   outside `0..n-1` makes `parent.get` throw, which ends the thread; when only
   the destination is outside, the `find` of the source has already run.
   */
  method RelaxAll(p: seq<int>, t0: Trace, t: Trace) returns (q: seq<int>, error: Option<Error>)
    requires Tracks(p, t0)
    ensures |q| == |p| && Forest(q)
    ensures error.None? <==> forall k :: 0 <= k < |t| ==> EdgeIn(t[k], |p|)
    ensures error.Some? ==> error == Some(IndexOutOfBounds)
    ensures Tracks(q, t0 + Performed(t, |p|))
  {
    q, error := p, None;
    var k := 0;
    assert t0 + t[..0] == t0;
    while k < |t|
      invariant 0 <= k <= |t| && |q| == |p|
      invariant forall j :: 0 <= j < k ==> EdgeIn(t[j], |p|)
      invariant Tracks(q, t0 + t[..k])
    {
      var (x, y) := t[k];
      if !(0 <= x < |p|) {
        PerformedAt(t, |p|, k);
        return q, Some(IndexOutOfBounds);
      }
      if !(0 <= y < |p|) {
        var r, q1 := Find(q, x);
        TracksFind(q, q1, t0 + t[..k]);
        PerformedAt(t, |p|, k);
        return q1, Some(IndexOutOfBounds);
      }
      assert t0 + t[..k + 1] == (t0 + t[..k]) + [(x, y)];
      q := RelaxEdge(q, t0 + t[..k], x, y);
      k := k + 1;
    }
    assert t[..k] == t;
    PerformedAllCalls(t, |p|);
  }

  /** The calls each thread performs. */
  function PerformedAll(passes: seq<Trace>, n: int): (us: seq<Trace>)
    ensures |us| == |passes|
  {
    seq(|passes|, i requires 0 <= i < |passes| => Performed(passes[i], n))
  }

  /** When every call is in range, the threads perform all of them. */
  lemma PerformedAllInRange(passes: seq<Trace>, n: int)
    requires forall i, k :: 0 <= i < |passes| && 0 <= k < |passes[i]| ==> EdgeIn(passes[i][k], n)
    ensures Flatten(PerformedAll(passes, n)) == Flatten(passes)
  {
    forall i | 0 <= i < |passes|
      ensures PerformedAll(passes, n)[i] == passes[i]
    {
      PerformedAllCalls(passes[i], n);
    }
    assert PerformedAll(passes, n) == passes;
  }

  /**
   The edge pass of a threaded context: the threads' passes one after the
   other, each ending at its own first out-of-range call. An exception ends
   only its thread, so the pass itself always completes.
   */
  method RelaxThreads(p: seq<int>, passes: seq<Trace>) returns (q: seq<int>)
    requires Tracks(p, [])
    ensures |q| == |p| && Tracks(q, Flatten(PerformedAll(passes, |p|)))
  {
    q := p;
    var i := 0;
    assert PerformedAll(passes[..0], |p|) == [];
    while i < |passes|
      invariant 0 <= i <= |passes| && |q| == |p|
      invariant Tracks(q, Flatten(PerformedAll(passes[..i], |p|)))
    {
      var done := Flatten(PerformedAll(passes[..i], |p|));
      var error;
      q, error := RelaxAll(q, done, passes[i]);
      assert PerformedAll(passes[..i + 1], |p|) == PerformedAll(passes[..i], |p|) + [Performed(passes[i], |p|)];
      FlattenSnoc(PerformedAll(passes[..i], |p|), Performed(passes[i], |p|));
      i := i + 1;
    }
    assert passes[..i] == passes;
  }

  // ---------------------------------------------------------------------------
  // Post-processing
  // ---------------------------------------------------------------------------

  /** The number of roots among the vertices `0..k-1`: the id the remap loop gives root `k`. */
  function RootsBelow(p: seq<int>, k: int): (c: nat)
    requires 0 <= k <= |p|
    ensures c <= k
  {
    if k == 0 then 0 else RootsBelow(p, k - 1) + (if p[k - 1] == k - 1 then 1 else 0)
  }

  /** The number of vertices among `0..k-1` whose root is `r`. */
  function ClassSize(p: seq<int>, r: int, k: int): nat
    requires Forest(p) && 0 <= k <= |p|
  {
    if k == 0 then 0 else ClassSize(p, r, k - 1) + (if Root(p, k - 1) == r then 1 else 0)
  }

  /** Roots get strictly increasing ids, all below the number of roots. */
  lemma {:induction false} RootsBelowIncreasing(p: seq<int>, a: int, b: int)
    requires 0 <= a < b <= |p| && p[a] == a
    ensures RootsBelow(p, a) < RootsBelow(p, b)
    decreases b - a
  {
    if b > a + 1 {
      RootsBelowIncreasing(p, a, b - 1);
    }
  }

  /** Every id below the number of roots among `0..k-1` belongs to one of them. */
  lemma {:induction false} RootWithId(p: seq<int>, k: int, j: int) returns (r: int)
    requires 0 <= k <= |p| && 0 <= j < RootsBelow(p, k)
    ensures 0 <= r < k && p[r] == r && RootsBelow(p, r) == j
    decreases k
  {
    if j < RootsBelow(p, k - 1) {
      r := RootWithId(p, k - 1, j);
    } else {
      r := k - 1;
    }
  }

  lemma {:induction false} ClassSizeOfRoot(p: seq<int>, r: int, k: int)
    requires Forest(p) && 0 <= r < k <= |p| && p[r] == r
    ensures ClassSize(p, r, k) >= 1
    decreases k
  {
    if k - 1 > r {
      ClassSizeOfRoot(p, r, k - 1);
    }
  }

  /** One round of the remap loop: vertex `i` gets the next id when `find(i)` says it is a root. */
  method AssignOne(p: seq<int>, q: seq<int>, ncc: int, remap: seq<int>, i: int)
    returns (ncc': int, remap': seq<int>, q': seq<int>)
    requires Forest(p) && 0 <= i < |p| && |remap| == |p|
    requires |q| == |p| && Forest(q) && forall y :: 0 <= y < |p| ==> Root(q, y) == Root(p, y)
    requires ncc == RootsBelow(p, i)
    requires forall r :: 0 <= r < i && p[r] == r ==> remap[r] == RootsBelow(p, r)
    ensures |q'| == |p| && Forest(q') && forall y :: 0 <= y < |p| ==> Root(q', y) == Root(p, y)
    ensures ncc' == RootsBelow(p, i + 1) && |remap'| == |p|
    ensures forall r :: 0 <= r < i + 1 && p[r] == r ==> remap'[r] == RootsBelow(p, r)
  {
    var r;
    r, q' := Find(q, i);
    ncc', remap' := ncc, remap;
    if r == i {
      remap' := remap[i := ncc];
      ncc' := ncc + 1;
    }
  }

  /**
   The remap loop of `compute`: in increasing vertex order, every vertex that
   `find` reports as its own root gets the next id, so the ids of the roots are
   `0..ncc-1` in increasing order. `find` halves paths again but moves no root.
   */
  method AssignIds(p: seq<int>) returns (ncc: int, remap: seq<int>, q: seq<int>)
    requires Forest(p)
    ensures ncc == RootsBelow(p, |p|) && |remap| == |p|
    ensures forall r :: 0 <= r < |p| && p[r] == r ==> remap[r] == RootsBelow(p, r) < ncc
    ensures |q| == |p| && Forest(q) && forall y :: 0 <= y < |p| ==> Root(q, y) == Root(p, y)
  {
    var n := |p|;
    q := p;
    ncc := 0;
    remap := Zeros(n);
    var i := 0;
    while i < n
      invariant 0 <= i <= n && |q| == n && Forest(q) && |remap| == n
      invariant forall y :: 0 <= y < n ==> Root(q, y) == Root(p, y)
      invariant ncc == RootsBelow(p, i)
      invariant forall r :: 0 <= r < i && p[r] == r ==> remap[r] == RootsBelow(p, r)
    {
      ncc, remap, q := AssignOne(p, q, ncc, remap, i);
      i := i + 1;
    }
    forall r | 0 <= r < n && p[r] == r
      ensures RootsBelow(p, r) < ncc
    {
      RootsBelowIncreasing(p, r, n);
    }
  }

  /** `sizes[id]` is the number of vertices below `i` whose root has that id. */
  predicate CountedBelow(p: seq<int>, sizes: seq<int>, i: int)
    requires Forest(p) && 0 <= i <= |p|
  {
    forall r :: 0 <= r < |p| && p[r] == r ==>
      RootsBelow(p, r) < |sizes| && sizes[RootsBelow(p, r)] == ClassSize(p, r, i)
  }

  /** Counting vertex `i` for its root keeps every other root's count. */
  lemma CountStep(p: seq<int>, sizes: seq<int>, i: int)
    requires Forest(p) && 0 <= i < |p| && CountedBelow(p, sizes, i)
    ensures var k := RootsBelow(p, Root(p, i));
      k < |sizes| && CountedBelow(p, sizes[k := sizes[k] + 1], i + 1)
  {
    var r := Root(p, i);
    forall r' | 0 <= r' < |p| && p[r'] == r' && r' != r
      ensures RootsBelow(p, r') != RootsBelow(p, r)
    {
      if r' < r {
        RootsBelowIncreasing(p, r', r);
      } else {
        RootsBelowIncreasing(p, r, r');
      }
    }
  }

  /** One round of the size loop: vertex `i` is found and counted for its root's id. */
  method CountOne(p: seq<int>, q: seq<int>, remap: seq<int>, sizes: seq<int>, i: int)
    returns (sizes': seq<int>, q': seq<int>)
    requires Forest(p) && |remap| == |p| && 0 <= i < |p|
    requires forall r :: 0 <= r < |p| && p[r] == r ==> remap[r] == RootsBelow(p, r)
    requires |q| == |p| && Forest(q) && forall y :: 0 <= y < |p| ==> Root(q, y) == Root(p, y)
    requires CountedBelow(p, sizes, i)
    ensures |sizes'| == |sizes| && Sum(sizes') == Sum(sizes) + 1 && CountedBelow(p, sizes', i + 1)
    ensures |q'| == |p| && Forest(q') && forall y :: 0 <= y < |p| ==> Root(q', y) == Root(p, y)
  {
    var r;
    r, q' := Find(q, i);
    var k := remap[r];
    assert k == RootsBelow(p, Root(p, i));
    CountStep(p, sizes, i);
    SumIncrement(sizes, k);
    sizes' := sizes[k := sizes[k] + 1];
  }

  /**
   The size loop of `compute`: every vertex adds one to the entry of its
   root's id, so each entry ends as the size of that root's class.
   */
  method CountSizes(p: seq<int>, p1: seq<int>, ncc: int, remap: seq<int>) returns (sizes: seq<int>, q: seq<int>)
    requires Forest(p) && ncc == RootsBelow(p, |p|) && |remap| == |p|
    requires |p1| == |p| && Forest(p1) && forall y :: 0 <= y < |p| ==> Root(p1, y) == Root(p, y)
    requires forall r :: 0 <= r < |p| && p[r] == r ==> remap[r] == RootsBelow(p, r) < ncc
    ensures |sizes| == ncc && Sum(sizes) == |p| && CountedBelow(p, sizes, |p|)
    ensures |q| == |p| && Forest(q) && forall y :: 0 <= y < |p| ==> Root(q, y) == Root(p, y)
  {
    var n := |p|;
    q := p1;
    sizes := Zeros(ncc);
    SumZeros(ncc);
    var i := 0;
    while i < n
      invariant 0 <= i <= n && |q| == n && Forest(q) && |sizes| == ncc
      invariant forall y :: 0 <= y < n ==> Root(q, y) == Root(p, y)
      invariant Sum(sizes) == i
      invariant CountedBelow(p, sizes, i)
    {
      sizes, q := CountOne(p, q, remap, sizes, i);
      i := i + 1;
    }
  }

  /**
   The post-pass of `compute`: one size per root, in increasing root order,
   each the size of the root's class and at least one, together covering
   every vertex.
   */
  method PostProcess(p: seq<int>) returns (sizes: seq<int>, q: seq<int>)
    requires Forest(p)
    ensures |sizes| == RootsBelow(p, |p|)
    ensures forall r :: 0 <= r < |p| && p[r] == r ==>
      RootsBelow(p, r) < |sizes| && sizes[RootsBelow(p, r)] == ClassSize(p, r, |p|)
    ensures forall j :: 0 <= j < |sizes| ==> sizes[j] >= 1
    ensures Sum(sizes) == |p|
    ensures |q| == |p| && Forest(q) && forall y :: 0 <= y < |p| ==> Root(q, y) == Root(p, y)
  {
    var ncc, remap, q1 := AssignIds(p);
    sizes, q := CountSizes(p, q1, ncc, remap);
    forall j | 0 <= j < |sizes|
      ensures sizes[j] >= 1
    {
      var r := RootWithId(p, |p|, j);
      ClassSizeOfRoot(p, r, |p|);
    }
  }

  // ---------------------------------------------------------------------------
  // compute
  // ---------------------------------------------------------------------------

  /** `v` is the largest vertex of its connected piece of `t`. */
  ghost predicate Largest(t: Trace, n: int, v: int)
  {
    forall u :: 0 <= u < n && Connected(t, v, u) ==> u <= v
  }

  /** The number of pieces among the vertices `0..k-1`, counted by their largest vertex. */
  ghost function LargestBelow(t: Trace, n: int, k: nat): nat
  {
    if k == 0 then 0 else LargestBelow(t, n, k - 1) + (if Largest(t, n, k - 1) then 1 else 0)
  }

  /** The number of vertices among `0..k-1` connected to `v`. */
  ghost function PieceSize(t: Trace, v: int, k: nat): nat
  {
    if k == 0 then 0 else PieceSize(t, v, k - 1) + (if Connected(t, k - 1, v) then 1 else 0)
  }

  /** With the sets tracking the trace, the roots are the largest vertices of the pieces. */
  lemma RootsAreLargest(p: seq<int>, t: Trace, v: int)
    requires Tracks(p, t) && 0 <= v < |p|
    ensures p[v] == v <==> Largest(t, |p|, v)
  {
    var r := Root(p, v);
    assert Root(p, r) == r;
    if Largest(t, |p|, v) {
      assert SameSet(p, v, r);
    }
  }

  lemma {:induction false} RootsBelowLargest(p: seq<int>, t: Trace, k: nat)
    requires Tracks(p, t) && k <= |p|
    ensures RootsBelow(p, k) == LargestBelow(t, |p|, k)
  {
    if k > 0 {
      RootsBelowLargest(p, t, k - 1);
      RootsAreLargest(p, t, k - 1);
    }
  }

  lemma {:induction false} ClassSizePiece(p: seq<int>, t: Trace, r: int, k: nat)
    requires Tracks(p, t) && 0 <= r < |p| && p[r] == r && k <= |p|
    ensures ClassSize(p, r, k) == PieceSize(t, r, k)
  {
    if k > 0 {
      ClassSizePiece(p, t, r, k - 1);
      assert Root(p, r) == r;
      assert SameSet(p, k - 1, r) <==> Connected(t, k - 1, r);
    }
  }

  /**
   What `context.edgemap(matrix, relax)` does, as `compute` sees it:
   `Threaded` hands each worker thread its trace of relax calls, and an
   exception ends only the thread that raised it; `Inline` makes the relax
   calls in the caller's thread, so an exception leaves `edgemap`; `Failed`
   throws from `edgemap` itself before any relax call.
   */
  datatype EdgePass = Threaded(passes: seq<Trace>) | Inline(calls: Trace) | Failed(error: Error)

  /** The calls whose unions `compute` builds on when the pass completes. */
  function PassCalls(pass: EdgePass, n: int): Trace
  {
    match pass
    case Threaded(passes) => Flatten(PerformedAll(passes, n))
    case Inline(calls) => calls
    case Failed(_) => []
  }

  /** The edge pass of a context whose `edgemap` starts one worker thread per run, or throws `e` first. */
  function WorkerPass(context: Result<seq<Run>>): EdgePass
  {
    if context.Ok? then Threaded(Traces(context.value)) else Failed(context.error)
  }

  /**
   `DisjointSetCC.compute` for `n` vertices and the edge pass `pass` of the
   context. A negative vertex count fails the array allocation, and an
   exception that leaves `edgemap` leaves `compute`. A worker thread whose
   union meets a vertex outside `0..n-1` dies there and `compute` carries
   on. The result then describes the undirected graph of the calls performed:
   one size per connected piece, the pieces ordered by their largest vertex,
   each size the number of vertices in the piece.
   */
  method Compute(n: int, pass: EdgePass) returns (r: Result<seq<int>>)
    ensures n < 0 ==> r == Err(NegativeArraySize)
    ensures n >= 0 && pass.Failed? ==> r == Err(pass.error)
    ensures n >= 0 && pass.Threaded? ==> r.Ok?
    ensures n >= 0 && pass.Inline? ==>
      (r.Ok? <==> forall k :: 0 <= k < |pass.calls| ==> EdgeIn(pass.calls[k], n))
    ensures n >= 0 && pass.Inline? && r.Err? ==> r.error == IndexOutOfBounds
    ensures r.Ok? ==> var t := PassCalls(pass, n);
      |r.value| == LargestBelow(t, n, n)
    ensures r.Ok? ==> var t := PassCalls(pass, n);
      forall v :: 0 <= v < n && Largest(t, n, v) ==>
        LargestBelow(t, n, v) < |r.value| && r.value[LargestBelow(t, n, v)] == PieceSize(t, v, n)
    ensures r.Ok? ==> Sum(r.value) == n && forall j :: 0 <= j < |r.value| ==> r.value[j] >= 1
  {
    if n < 0 {
      return Err(NegativeArraySize);
    }
    var parent := MakeSet(n);
    TracksStart(n);
    var q;
    match pass {
      case Failed(e) =>
        return Err(e);
      case Threaded(passes) =>
        q := RelaxThreads(parent, passes);
      case Inline(calls) =>
        var error;
        q, error := RelaxAll(parent, [], calls);
        if error.Some? {
          return Err(error.value);
        }
        PerformedAllCalls(calls, n);
        assert [] + calls == calls;
    }
    ghost var t := PassCalls(pass, n);
    assert Tracks(q, t);
    var sizes, q' := PostProcess(q);
    RootsBelowLargest(q, t, n);
    forall v | 0 <= v < n && Largest(t, n, v)
      ensures LargestBelow(t, n, v) < |sizes| && sizes[LargestBelow(t, n, v)] == PieceSize(t, v, n)
    {
      RootsAreLargest(q, t, v);
      RootsBelowLargest(q, t, v);
      ClassSizePiece(q, t, v, n);
    }
    return Ok(sizes);
  }

  /**
   `ParallelContextSimple` over a CSC matrix: with no thread, `edgemap`
   throws before any relax call, so `compute` fails with it. Otherwise its
   worker threads together receive exactly the calls of the matrix's
   `edgemap`, and when those lie within the vertices `compute` builds on all
   of them.
   */
  lemma SimpleContextPass(g: Csc.Csc, T: int)
    requires Csc.Valid(g)
    ensures T <= 0 ==> WorkerPass(Simple.ParallelEdgeMap(g, T)) == Failed(Simple.ParallelEdgeMap(g, T).error)
    ensures T >= 1 ==> WorkerPass(Simple.ParallelEdgeMap(g, T)).Threaded?
    ensures T >= 1 ==>
      var calls := Csc.RangedEdgeMap(g, 0, g.numVertices - 1).trace;
      (forall e :: e in calls ==> EdgeIn(e, g.numVertices)) ==>
        PassCalls(WorkerPass(Simple.ParallelEdgeMap(g, T)), g.numVertices) == calls
  {
    if T >= 1 {
      var calls := Csc.RangedEdgeMap(g, 0, g.numVertices - 1).trace;
      var passes := Traces(Simple.ParallelEdgeMap(g, T).value);
      Simple.ParallelEdgeMapTrace(g, T);
      if forall e :: e in calls ==> EdgeIn(e, g.numVertices) {
        forall i, k | 0 <= i < |passes| && 0 <= k < |passes[i]|
          ensures EdgeIn(passes[i][k], g.numVertices)
        {
          FlattenContains(passes, i, k);
        }
        PerformedAllInRange(passes, g.numVertices);
      }
    }
  }
}

=== FILE: java_text.dfy ===
/**
 The pieces of the Java library the parsers rely on, stated exactly:
 `Integer.parseInt` (radix 10), `String.split(" ")`, `String.equalsIgnoreCase`
 against the ASCII header words, and the decimal text a writer of the graph
 files produces (`Integer.toString`), with the round trip between the last
 and the first.
 */
module JavaText {
  import opened Common

  const IntMin: int := -0x8000_0000
  const IntMax: int := 0x7FFF_FFFF

  predicate IsDigit(c: char) { '0' <= c <= '9' }

  predicate AllDigits(s: string)
  {
    forall i :: 0 <= i < |s| ==> IsDigit(s[i])
  }

  /** Value of a string of decimal digits, most significant first. */
  function DigitsValue(s: string): nat
    requires AllDigits(s)
  {
    if s == [] then 0 else DigitsValue(s[..|s| - 1]) * 10 + (s[|s| - 1] as int - '0' as int)
  }

  /**
   `Integer.parseInt(s)`: an optional sign followed by at least one decimal
   digit, whose value fits in 32 bits; anything else is a NumberFormatException,
   modelled as `None`.
   */
  function ParseInt(s: string): (r: Option<int>)
    ensures r.Some? ==> IntMin <= r.value <= IntMax
    ensures r.Some? ==> s != [] && AllDigits(s[1..])
  {
    if s != [] && (s[0] == '-' || s[0] == '+') then
      var ds := s[1..];
      if ds != [] && AllDigits(ds) then
        var mag: int := DigitsValue(ds);
        var v := if s[0] == '-' then -mag else mag;
        if IntMin <= v <= IntMax then Some(v) else None
      else None
    else if s != [] && AllDigits(s) && DigitsValue(s) <= IntMax then
      Some(DigitsValue(s))
    else None
  }

  /** The canonical decimal text of a natural number (no sign, no leading zeros). */
  function Digits(n: nat): (s: string)
    ensures s != [] && AllDigits(s)
  {
    var d := ('0' as int + n % 10) as char;
    if n < 10 then [d] else Digits(n / 10) + [d]
  }

  /** `Integer.toString(v)`. */
  function DecimalString(v: int): string
  {
    if v < 0 then "-" + Digits(-v) else Digits(v)
  }

  lemma {:induction false} DigitsValueOfDigits(n: nat)
    ensures DigitsValue(Digits(n)) == n
  {
    var s := Digits(n);
    if n >= 10 {
      DigitsValueOfDigits(n / 10);
      assert s[..|s| - 1] == Digits(n / 10);
    }
  }

  /** Reading back the decimal text of a 32-bit value gives the value. */
  lemma ParseDecimalString(v: int)
    requires IntMin <= v <= IntMax
    ensures ParseInt(DecimalString(v)) == Some(v)
  {
    if v < 0 {
      DigitsValueOfDigits(-v);
      ParseNegative(Digits(-v));
    } else {
      DigitsValueOfDigits(v);
      ParseUnsigned(Digits(v));
    }
  }

  lemma ParseNegative(ds: string)
    requires ds != [] && AllDigits(ds)
    ensures ParseInt("-" + ds) == if IntMin <= -(DigitsValue(ds) as int) then Some(-(DigitsValue(ds) as int)) else None
  {
    assert ("-" + ds)[1..] == ds;
  }

  lemma ParseUnsigned(ds: string)
    requires ds != [] && AllDigits(ds)
    ensures ParseInt(ds) == if DigitsValue(ds) <= IntMax then Some(DigitsValue(ds)) else None
  {
    assert IsDigit(ds[0]);
  }

  lemma NoSpaceInDecimalString(v: int)
    ensures ' ' !in DecimalString(v)
  {
    var s := DecimalString(v);
    if v < 0 {
      forall i | 1 <= i < |s|
        ensures s[i] != ' '
      {
        assert s[i] == Digits(-v)[i - 1];
      }
    }
    assert forall i :: 0 <= i < |s| ==> s[i] != ' ';
  }

  /**
   The fields of `s` between single spaces, empty fields included:
   `"a  b"` has the fields `"a"`, `""`, `"b"`.
   */
  function Fields(s: string): (f: seq<string>)
    ensures |f| >= 1
    decreases |s|
  {
    var k := IndexOf(s, ' ');
    if k == |s| then [s] else [s[..k]] + Fields(s[k + 1..])
  }

  function DropTrailingEmpty(f: seq<string>): (g: seq<string>)
    ensures |g| <= |f| && g == f[..|g|]
    ensures g != [] ==> g[|g| - 1] != ""
    ensures forall i :: |g| <= i < |f| ==> f[i] == ""
  {
    if f != [] && f[|f| - 1] == "" then DropTrailingEmpty(f[..|f| - 1]) else f
  }

  /**
   `s.split(" ")`: the fields between single spaces with trailing empty fields
   removed; the empty string splits into one empty field.
   */
  function Split(s: string): (f: seq<string>)
  {
    if s == "" then [""] else DropTrailingEmpty(Fields(s))
  }

  /** The tokens joined by single spaces. */
  function Join(tokens: seq<string>): string
    requires tokens != []
  {
    if |tokens| == 1 then tokens[0] else tokens[0] + " " + Join(tokens[1..])
  }

  /** Splitting what `Join` produced gives back the tokens, when they are non-empty and space-free. */
  lemma {:induction false} SplitJoin(tokens: seq<string>)
    requires tokens != []
    requires forall i :: 0 <= i < |tokens| ==> tokens[i] != "" && ' ' !in tokens[i]
    ensures Split(Join(tokens)) == tokens
  {
    FieldsJoin(tokens);
    assert Join(tokens) != "" by {
      if |tokens| > 1 {
        assert Join(tokens)[..|tokens[0]|] == tokens[0];
      }
    }
  }

  lemma {:induction false} FieldsJoin(tokens: seq<string>)
    requires tokens != []
    requires forall i :: 0 <= i < |tokens| ==> tokens[i] != "" && ' ' !in tokens[i]
    ensures Fields(Join(tokens)) == tokens
  {
    if |tokens| > 1 {
      var t, rest := tokens[0], Join(tokens[1..]);
      var s := t + " " + rest;
      IndexOfAfterPrefix(t, rest);
      assert s[..|t|] == t;
      assert s[|t| + 1..] == rest;
      FieldsJoin(tokens[1..]);
      assert [t] + tokens[1..] == tokens;
    }
  }

  lemma IndexOfAfterPrefix(t: string, rest: string)
    requires ' ' !in t
    ensures IndexOf(t + " " + rest, ' ') == |t|
  {
    var s := t + " " + rest;
    var k := IndexOf(s, ' ');
    assert s[|t|] == ' ';
    assert forall i :: 0 <= i < |t| ==> s[i] == t[i];
  }

  /**
   `line.equalsIgnoreCase(word)` for a word of upper-case ASCII letters and
   punctuation: equal lengths and every character equal up to case. Besides
   ASCII lower case, the one Java case mapping that reaches these words is the
   long s (U+017F), whose upper case is `S`.
   */
  predicate EqualsIgnoreCase(line: string, word: string)
  {
    |line| == |word| && forall i :: 0 <= i < |line| ==> FoldCase(line[i]) == FoldCase(word[i])
  }

  function FoldCase(c: char): char
  {
    if 'a' <= c <= 'z' then (c as int - 32) as char
    else if c == 'ſ' then 'S'
    else c
  }
}

=== FILE: parallel_context_simple.dfy ===
/**
 The simple parallel context: `edgemap` cuts the vertices `0..n-1` into one
 range per thread, of `ceil(n / T)` vertices each with the remainder left to
 the last thread, and every thread runs the matrix's `ranged_edgemap` over its
 range. Threads are modelled one after the other, each contributing the run
 (relax calls and uncaught exception) of its range. An exception inside a
 thread ends only that thread; `edgemap` itself raises only when the thread
 array cannot be built or indexed.
 */
module ParallelContextSimple {
  import opened Common
  import opened SparseMatrixCsc

  /** The vertices `first..last` one thread processes; empty when `first > last`. */
  type Range = (int, int)

  function Min(a: int, b: int): int
  {
    if a <= b then a else b
  }

  /**
   `rangeLength`: `n / T` rounded up. The source divides in floating point
   and rounds with `Math.ceil`; for 32-bit operands the quotient is never
   rounded across an integer, so the integer ceiling is exact.
   */
  function RangeLength(n: int, t: int): (r: int)
    requires t > 0
    ensures n <= r * t < n + t
  {
    var q := (n + t - 1) / t;
    assert n + t - 1 == t * q + (n + t - 1) % t;
    q
  }

  lemma RangeLengthNonNegative(n: int, t: int)
    requires t > 0 && n >= 0
    ensures RangeLength(n, t) >= 0
  {
    var r := RangeLength(n, t);
    if r < 0 {
      assert r * t <= -t by {
        MulMono(r, -1, t);
      }
    }
  }

  lemma MulPositive(a: int, c: int)
    requires a >= 0 && c >= 0 && a * c > 0
    ensures a >= 1 && c >= 1
  {
  }

  lemma MulStep(k: int, c: int)
    ensures (k + 1) * c == k * c + c
  {
  }

  /** The range of thread `i`: full blocks for all threads but the last, which ends at `n - 1`. */
  function RangeOf(n: int, t: int, i: int): Range
    requires t > 0
  {
    var rl := RangeLength(n, t);
    if i < t - 1 then (i * rl, i * rl + rl - 1) else ((t - 1) * rl, n - 1)
  }

  /**
   The ranges of the `T` threads. They chain end to end: the first starts at
   vertex 0, each starts just after the previous one ends, and the last ends
   at `n - 1`.
   */
  function Ranges(n: int, t: int): (rs: seq<Range>)
    requires t > 0
    ensures |rs| == t
    ensures rs[0].0 == 0 && rs[t - 1].1 == n - 1
    ensures forall i :: 0 <= i < t - 1 ==> rs[i].1 + 1 == rs[i + 1].0
  {
    var rs := seq(t, i requires 0 <= i < t => RangeOf(n, t, i));
    forall i | 0 <= i < t - 1
      ensures rs[i].1 + 1 == rs[i + 1].0
    {
      MulStep(i, RangeLength(n, t));
    }
    rs
  }

  /** The full blocks of the first `T - 1` threads end within the vertices. */
  predicate Covers(n: int, t: int)
    requires t > 0
  {
    (t - 1) * RangeLength(n, t) <= n
  }

  /**
   When the full blocks fit, every range lies within `0..n-1` (the last one
   may be empty), so the chained ranges partition the vertices.
   */
  lemma CoveredRangesInside(n: int, t: int)
    requires n >= 0 && t > 0 && Covers(n, t)
    ensures forall i :: 0 <= i < t ==> 0 <= Ranges(n, t)[i].0 && Ranges(n, t)[i].1 <= n - 1
  {
    var rl := RangeLength(n, t);
    RangeLengthNonNegative(n, t);
    forall i | 0 <= i < t
      ensures 0 <= Ranges(n, t)[i].0 && Ranges(n, t)[i].1 <= n - 1
    {
      MulMono(0, i, rl);
      if i < t - 1 {
        MulMono(i + 1, t - 1, rl);
        MulStep(i, rl);
      }
    }
  }

  /**
   When the full blocks do not fit, the range of thread `T - 2` is not empty
   and ends at vertex `n` or beyond.
   */
  lemma RangesOverrun(n: int, t: int)
    requires n >= 0 && t > 0 && !Covers(n, t)
    ensures t >= 2 && Ranges(n, t)[t - 2].0 <= Ranges(n, t)[t - 2].1 && Ranges(n, t)[t - 2].1 >= n
  {
    var rl := RangeLength(n, t);
    RangeLengthNonNegative(n, t);
    MulPositive(t - 1, rl);
    MulStep(t - 2, rl);
  }

  /** The runs of the threads over the given ranges, in thread order. */
  function ThreadRuns(g: Csc, rs: seq<Range>): (runs: seq<Run>)
    requires Valid(g)
    ensures |runs| == |rs|
  {
    seq(|rs|, i requires 0 <= i < |rs| => RangedEdgeMap(g, rs[i].0, rs[i].1))
  }

  /**
   `edgemap(matrix, relax)` on a CSC matrix with `T` threads: a negative
   count fails the thread array allocation, a zero count fails indexing
   `threads[T - 1]`, and otherwise exactly `T` threads run, one per range.
   */
  function ParallelEdgeMap(g: Csc, t: int): (r: Result<seq<Run>>)
    requires Valid(g)
    ensures t < 0 ==> r == Err(NegativeArraySize)
    ensures t == 0 ==> r == Err(IndexOutOfBounds)
    ensures t > 0 ==> r.Ok? && |r.value| == t
  {
    if t < 0 then Err(NegativeArraySize)
    else if t == 0 then Err(IndexOutOfBounds)
    else Ok(ThreadRuns(g, Ranges(g.numVertices, t)))
  }

  // ---------------------------------------------------------------------------
  // Ranges clamped to the vertices
  // ---------------------------------------------------------------------------

  /** The ranges with every end clamped to `n - 1`, so that no thread leaves the vertices. */
  function ClampedRanges(n: int, t: int): (rs: seq<Range>)
    requires t > 0
    ensures |rs| == t
  {
    var ws := Ranges(n, t);
    seq(t, i requires 0 <= i < t => (ws[i].0, Min(ws[i].1, n - 1)))
  }

  /** An empty range makes no calls and raises nothing. */
  lemma EmptyRange(g: Csc, first: int, last: int)
    requires Valid(g) && first > last
    ensures RangedEdgeMap(g, first, last) == Run([], None)
  {
  }

  /** The clamped range of thread `k` is the block `k` cut to the vertices. */
  lemma ClampedRangeOf(n: int, t: int, k: int)
    requires n >= 0 && t > 0 && 0 <= k < t
    ensures var rl := RangeLength(n, t);
      var c := ClampedRanges(n, t)[k];
      c.0 == k * rl && Min(c.1, n - 1) == c.1 &&
      (k * rl <= n ==> c == (Min(k * rl, n), Min((k + 1) * rl, n) - 1))
  {
    var rl := RangeLength(n, t);
    MulStep(k, rl);
    if k == t - 1 {
      assert (k + 1) * rl == rl * t;
    }
  }

  /** Where block `k` of `n` vertices in `T` blocks starts, cut to `n`. */
  function BlockStart(n: int, t: int, k: int): int
    requires t > 0
  {
    Min(k * RangeLength(n, t), n)
  }

  /** The clamped thread `k` makes the calls of block `k` of the vertices, cut to `0..n-1`. */
  lemma ClampedThreadRun(g: Csc, t: int, k: int)
    requires Valid(g) && t > 0 && 0 <= k < t
    ensures var n := g.numVertices;
      && BlockStart(n, t, k) <= BlockStart(n, t, k + 1) <= n
      && ThreadRuns(g, ClampedRanges(n, t))[k] == RangedEdgeMap(g, BlockStart(n, t, k), BlockStart(n, t, k + 1) - 1)
  {
    var n, rl := g.numVertices, RangeLength(g.numVertices, t);
    RangeLengthNonNegative(n, t);
    ClampedRangeOf(n, t, k);
    MulMono(k, k + 1, rl);
    MulStep(k, rl);
    var a, b := Min(k * rl, n), Min((k + 1) * rl, n) - 1;
    if k * rl > n {
      EmptyRange(g, a, b);
      var c := ClampedRanges(n, t)[k];
      EmptyRange(g, c.0, c.1);
    }
  }

  /** The clamped threads from `k` on make the calls of the vertices from block `k` to the end. */
  lemma {:induction false} ClampedSuffix(g: Csc, t: int, k: int)
    requires Valid(g) && t > 0 && 0 <= k <= t
    ensures ThenAll(ThreadRuns(g, ClampedRanges(g.numVertices, t))[k..])
      == RangedEdgeMap(g, BlockStart(g.numVertices, t, k), g.numVertices - 1)
    decreases t - k
  {
    if k == t {
      ClampedSuffixEnd(g, t);
    } else {
      ClampedSuffix(g, t, k + 1);
      ClampedSuffixStep(g, t, k);
    }
  }

  /** Past the last thread nothing is left: block `T` starts beyond the vertices. */
  lemma ClampedSuffixEnd(g: Csc, t: int)
    requires Valid(g) && t > 0
    ensures ThenAll(ThreadRuns(g, ClampedRanges(g.numVertices, t))[t..])
      == RangedEdgeMap(g, BlockStart(g.numVertices, t, t), g.numVertices - 1)
  {
    var n, rl := g.numVertices, RangeLength(g.numVertices, t);
    assert t * rl == rl * t;
    assert BlockStart(n, t, t) == n;
    EmptyRange(g, n, n - 1);
    assert ThreadRuns(g, ClampedRanges(n, t))[t..] == [];
  }

  /** Thread `k` followed by the threads after it covers block `k` and everything after it. */
  lemma ClampedSuffixStep(g: Csc, t: int, k: int)
    requires Valid(g) && t > 0 && 0 <= k < t
    requires ThenAll(ThreadRuns(g, ClampedRanges(g.numVertices, t))[k + 1..])
      == RangedEdgeMap(g, BlockStart(g.numVertices, t, k + 1), g.numVertices - 1)
    ensures ThenAll(ThreadRuns(g, ClampedRanges(g.numVertices, t))[k..])
      == RangedEdgeMap(g, BlockStart(g.numVertices, t, k), g.numVertices - 1)
  {
    var n := g.numVertices;
    var a, m := BlockStart(n, t, k), BlockStart(n, t, k + 1);
    ClampedThreadRun(g, t, k);
    SplitBefore(g, a, m, n - 1);
    ThenAllStep(ThreadRuns(g, ClampedRanges(n, t)), k,
      RangedEdgeMap(g, a, m - 1), RangedEdgeMap(g, m, n - 1), RangedEdgeMap(g, a, n - 1));
  }

  /** The edge map over `a..c` is the one over `a..m-1` followed by the one over `m..c`. */
  lemma SplitBefore(g: Csc, a: int, m: int, c: int)
    requires Valid(g) && a <= m <= c + 1
    ensures RangedEdgeMap(g, a, c) == Then(RangedEdgeMap(g, a, m - 1), RangedEdgeMap(g, m, c))
  {
    RangedEdgeMapSplit(g, a, m - 1, c);
  }

  /**
   With clamped ranges, for every positive thread count, the threads raise
   nothing and together make exactly the calls of the sequential edge map
   over `0..n-1`, in the same order.
   */
  lemma ClampedEdgeMapComplete(g: Csc, t: int)
    requires Valid(g) && t > 0
    ensures NoErrors(ThreadRuns(g, ClampedRanges(g.numVertices, t)))
    ensures ThenAll(ThreadRuns(g, ClampedRanges(g.numVertices, t))) == RangedEdgeMap(g, 0, g.numVertices - 1)
    ensures Flatten(Traces(ThreadRuns(g, ClampedRanges(g.numVertices, t)))) == RangedEdgeMap(g, 0, g.numVertices - 1).trace
  {
    var runs := ThreadRuns(g, ClampedRanges(g.numVertices, t));
    ClampedSuffix(g, t, 0);
    assert runs[0..] == runs;
    RangedEdgeMapSpec(g, 0, g.numVertices - 1);
    ThenAllNoErrors(runs);
  }

  // ---------------------------------------------------------------------------
  // The ranges as written
  // ---------------------------------------------------------------------------

  /** When the full blocks fit, clamping changes no range. */
  lemma CoveredRangesClamped(n: int, t: int)
    requires n >= 0 && t > 0 && Covers(n, t)
    ensures ClampedRanges(n, t) == Ranges(n, t)
  {
    CoveredRangesInside(n, t);
  }

  /**
   Under the coverage condition, the `T` threads raise nothing and, run in
   thread order, make exactly the calls of the sequential edge map, in the
   same order.
   */
  lemma ParallelEdgeMapCovered(g: Csc, t: int)
    requires Valid(g) && t > 0 && Covers(g.numVertices, t)
    ensures ParallelEdgeMap(g, t).Ok?
    ensures NoErrors(ParallelEdgeMap(g, t).value)
    ensures ThenAll(ParallelEdgeMap(g, t).value) == RangedEdgeMap(g, 0, g.numVertices - 1)
  {
    CoveredRangesClamped(g.numVertices, t);
    ClampedEdgeMapComplete(g, t);
  }

  /**
   Under the coverage condition, thread `i` makes exactly the calls of the
   sequential edge map whose destination lies in its range.
   */
  lemma ThreadCalls(g: Csc, t: int, i: int)
    requires Valid(g) && t > 0 && Covers(g.numVertices, t) && 0 <= i < t
    ensures var r := Ranges(g.numVertices, t)[i];
      ParallelEdgeMap(g, t).value[i].trace == Keep(RangedEdgeMap(g, 0, g.numVertices - 1).trace, r.0, r.1)
  {
    CoveredRangesInside(g.numVertices, t);
    var r := Ranges(g.numVertices, t)[i];
    RangedEdgeMapFilter(g, r.0, r.1);
  }

  /** A range starting inside or past the vertices makes the calls of its part within them. */
  lemma ClampedTrace(g: Csc, first: int, last: int)
    requires Valid(g) && first >= 0
    ensures RangedEdgeMap(g, first, last).trace == RangedEdgeMap(g, first, Min(last, g.numVertices - 1)).trace
  {
    if first <= last && last >= g.numVertices {
      RangedEdgeMapOutOfRange(g, first, last);
    }
  }

  /**
   For every positive thread count, the threads together make every call of
   the sequential edge map exactly once and in order, none lost and none
   repeated; and no thread raises an exception exactly when the full blocks
   fit.
   */
  lemma ParallelEdgeMapTrace(g: Csc, t: int)
    requires Valid(g) && t > 0
    ensures Flatten(Traces(ParallelEdgeMap(g, t).value)) == RangedEdgeMap(g, 0, g.numVertices - 1).trace
    ensures NoErrors(ParallelEdgeMap(g, t).value) <==> Covers(g.numVertices, t)
  {
    var n := g.numVertices;
    var runs, clamped := ParallelEdgeMap(g, t).value, ThreadRuns(g, ClampedRanges(n, t));
    RangeLengthNonNegative(n, t);
    forall i | 0 <= i < t
      ensures Traces(runs)[i] == Traces(clamped)[i]
    {
      MulMono(0, i, RangeLength(n, t));
      ClampedTrace(g, Ranges(n, t)[i].0, Ranges(n, t)[i].1);
    }
    assert Traces(runs) == Traces(clamped);
    ClampedEdgeMapComplete(g, t);
    ThenAllNoErrors(clamped);
    if Covers(n, t) {
      CoveredRangesClamped(n, t);
    } else {
      RangesOverrun(n, t);
      var r := Ranges(n, t)[t - 2];
      RangedEdgeMapOutOfRange(g, r.0, r.1);
      assert runs[t - 2].error.Some?;
    }
  }

  /**
   Five vertices on four threads: blocks of two give the ranges `0..1`,
   `2..3`, `4..5` and an empty `6..4`; the third thread handles vertex 4 and
   then fails on vertex 5.
   */
  lemma OverrunExample(g: Csc)
    requires Valid(g) && g.numVertices == 5
    ensures !Covers(5, 4)
    ensures Ranges(5, 4) == [(0, 1), (2, 3), (4, 5), (6, 4)]
    ensures ParallelEdgeMap(g, 4).value[2].error == Some(IndexOutOfBounds)
    ensures ParallelEdgeMap(g, 4).value[2].trace == RangedEdgeMap(g, 4, 4).trace
  {
    assert RangeLength(5, 4) == 2;
    RangedEdgeMapOutOfRange(g, 4, 5);
  }
}

=== FILE: sparse_matrix_csc.dfy ===
/**
 The compressed-sparse-column matrix: a text parser that builds `index[0..n]`
 and `sources[0..m)` from the lines of a CSC file, and the three traversals over
 those arrays (out-degree counting, the full edge map and the ranged edge map).
 The relax callback is replaced by the trace of calls it would receive.
 */
module SparseMatrixCsc {
  import opened Common
  import opened JavaText

  /** The fields of a constructed matrix. */
  datatype Csc = Csc(numVertices: int, numEdges: int, index: seq<int>, sources: seq<int>)

  /**
   The compressed-column invariant: `index` has one entry per vertex plus one,
   never decreases, starts non-negative and ends at the edge count, so every
   column `[index[i], index[i + 1])` is a range of `sources`.
   */
  predicate Valid(g: Csc)
  {
    && g.numVertices >= 0
    && |g.index| == g.numVertices + 1
    && |g.sources| == g.numEdges
    && 0 <= g.index[0]
    && (forall i, j :: 0 <= i <= j <= g.numVertices ==> g.index[i] <= g.index[j])
    && g.index[g.numVertices] == g.numEdges
  }

  // ---------------------------------------------------------------------------
  // Parsing
  // ---------------------------------------------------------------------------

  predicate IsHeader(line: string)
  {
    EqualsIgnoreCase(line, "CSC") || EqualsIgnoreCase(line, "CSC-CSR")
  }

  /**
   A vertex line as `readFile` sees it after `line.split(" ")`: the outcome of
   parsing its first token (absent when the split is empty) and of parsing
   each later token. Splitting and parsing never have side effects, so doing
   them before the loop changes no outcome.
   */
  datatype Lexed = Lexed(ordinal: Option<Option<int>>, sources: seq<Option<int>>)

  /** The tokens of a vertex line after its leading ordinal. */
  function SourceTokens(line: string): seq<string>
  {
    var elm := Split(line);
    if elm == [] then [] else elm[1..]
  }

  function Lex(line: string): (lx: Lexed)
    ensures |lx.sources| == |SourceTokens(line)|
  {
    var elm := Split(line);
    var tokens := SourceTokens(line);
    Lexed(if elm == [] then None else Some(ParseInt(elm[0])),
          seq(|tokens|, k requires 0 <= k < |tokens| => ParseInt(tokens[k])))
  }

  function LexAll(lines: seq<string>): (lxs: seq<Lexed>)
    ensures |lxs| == |lines|
  {
    seq(|lines|, k requires 0 <= k < |lines| => Lex(lines[k]))
  }

  /**
   The check `Integer.parseInt(elm[0]) == i`, which Java evaluates only when
   assertions are enabled; it fails on a missing, malformed or wrong ordinal.
   */
  function CheckOrdinal(ordinal: Option<Option<int>>, i: int): Option<Error>
  {
    match ordinal
    case None => Some(IndexOutOfBounds)
    case Some(None) => Some(NumberFormat)
    case Some(Some(v)) => if v == i then None else Some(AssertionFailed)
  }

  /**
   The inner loop of `readFile`: each token is parsed and then stored at
   `sources[where]`, `where` advancing by one; returns the stored values.
   */
  function StoreValues(values: seq<Option<int>>, where: int, m: int): Result<seq<int>>
  {
    if values == [] then Ok([])
    else if values[0].None? then Err(NumberFormat)
    else if !(0 <= where < m) then Err(IndexOutOfBounds)
    else match StoreValues(values[1..], where + 1, m)
      case Err(e) => Err(e)
      case Ok(rest) => Ok([values[0].value] + rest)
  }

  /**
   One pass of the vertex loop for vertex `i`: the ordinal check (with
   assertions enabled), then the line's sources stored from `where` on.
   */
  function ReadLine(lx: Lexed, i: int, m: int, checkOrdinals: bool, where: int): (r: Result<seq<int>>)
    ensures r.Ok? ==> r.value == [] || (0 <= where && where + |r.value| <= m)
  {
    var check := if checkOrdinals then CheckOrdinal(lx.ordinal, i) else None;
    if check.Some? then Err(check.value)
    else
      StoreValuesFit(lx.sources, where, m);
      StoreValues(lx.sources, where, m)
  }

  /**
   The vertex loop of `readFile` from vertex `i` on, over the remaining lines:
   returns the entries `index[i..n)` it writes and the sources it stores.
   */
  function ReadColumns(lxs: seq<Lexed>, i: int, n: int, m: int, checkOrdinals: bool, where: int)
    : (r: Result<(seq<int>, seq<int>)>)
    requires i <= n
    ensures r.Ok? ==> |r.value.0| == n - i
    ensures r.Ok? && where <= m ==> where + |r.value.1| <= m
    decreases n - i
  {
    if i == n then Ok(([], []))
    else if lxs == [] then Err(PrematureEndOfFile)
    else match ReadLine(lxs[0], i, m, checkOrdinals, where)
      case Err(e) => Err(e)
      case Ok(column) =>
        match ReadColumns(lxs[1..], i + 1, n, m, checkOrdinals, where + |column|)
        case Err(e) => Err(e)
        case Ok((idx, srcs)) => Ok(([where] + idx, column + srcs))
  }

  /**
   The header of a file `readFile` accepts: the format word, then a vertex
   count `n` and an edge count `m` the array allocations can take.
   */
  predicate HeaderOk(lines: seq<string>)
  {
    && |lines| >= 3
    && IsHeader(lines[0])
    && ParseInt(lines[1]).Some?
    && ParseInt(lines[2]).Some?
    && 0 <= ParseInt(lines[1]).value < IntMax
    && 0 <= ParseInt(lines[2]).value
  }

  /**
   The first three lines of `readFile`: the header word, the vertex count `n`
   and the edge count `m`, then the allocation of `index` with `n + 1` and of
   `sources` with `m` entries, and the store `index[n] = m`.
   */
  function ReadHeader(lines: seq<string>): (r: Result<(int, int)>)
    ensures r.Ok? <==> HeaderOk(lines)
    ensures r.Ok? ==> r.value == (ParseInt(lines[1]).value, ParseInt(lines[2]).value)
  {
    if |lines| == 0 then Err(PrematureEndOfFile)
    else if !IsHeader(lines[0]) then Err(HeaderFormat)
    else if |lines| == 1 then Err(PrematureEndOfFile)
    else if ParseInt(lines[1]).None? then Err(NumberFormat)
    else if |lines| == 2 then Err(PrematureEndOfFile)
    else if ParseInt(lines[2]).None? then Err(NumberFormat)
    else
      var n, m := ParseInt(lines[1]).value, ParseInt(lines[2]).value;
      // `new int[n + 1]` wraps to a negative size when n is the largest int
      if n + 1 < 0 || n == IntMax || m < 0 then Err(NegativeArraySize)
      // with n = -1 the index array is empty and `index[n] = m` is out of bounds
      else if n == -1 then Err(IndexOutOfBounds)
      else Ok((n, m))
  }

  /**
   `readFile`: the header, then one line per vertex. The arrays are allocated
   from the header counts, so sources not supplied by any line stay 0, and
   `index[n]` is set to `m` whatever the lines held. `checkOrdinals` says
   whether Java assertions are enabled.
   */
  function ReadFile(lines: seq<string>, checkOrdinals: bool): Result<Csc>
  {
    match ReadHeader(lines)
    case Err(e) => Err(e)
    case Ok((n, m)) =>
      match ReadColumns(LexAll(lines[3..]), 0, n, m, checkOrdinals, 0)
      case Err(e) => Err(e)
      case Ok((idx, srcs)) => Ok(Csc(n, m, idx + [m], srcs + Zeros(m - |srcs|)))
  }

  // ---------------------------------------------------------------------------
  // The declarative reading of a CSC file
  // ---------------------------------------------------------------------------

  predicate AllParsed(values: seq<Option<int>>)
  {
    forall k :: 0 <= k < |values| ==> values[k].Some?
  }

  /** The parsed values (0 where a token did not parse). */
  function Values(values: seq<Option<int>>): (vs: seq<int>)
    ensures |vs| == |values|
  {
    seq(|values|, k requires 0 <= k < |values| => if values[k].Some? then values[k].value else 0)
  }

  /** A well-formed line of vertex `ordinal`. */
  predicate LineOk(lx: Lexed, ordinal: int, checkOrdinals: bool)
  {
    AllParsed(lx.sources) && (checkOrdinals ==> lx.ordinal == Some(Some(ordinal)))
  }

  /** Line `k` of `lxs` is a well-formed line of vertex `first + k`, for `k < count`. */
  predicate LinesOk(lxs: seq<Lexed>, first: int, count: nat, checkOrdinals: bool)
    ensures LinesOk(lxs, first, count, checkOrdinals) ==> count <= |lxs|
    decreases count
  {
    count == 0 ||
    (lxs != [] && LineOk(lxs[0], first, checkOrdinals) && LinesOk(lxs[1..], first + 1, count - 1, checkOrdinals))
  }

  /** The source lists the first `count` vertex lines give. */
  function Columns(lxs: seq<Lexed>, count: nat): (cols: seq<seq<int>>)
    ensures count <= |lxs| ==> |cols| == count
  {
    if count == 0 || lxs == [] then []
    else [Values(lxs[0].sources)] + Columns(lxs[1..], count - 1)
  }

  /** Running totals of the column sizes, starting at `where`. */
  function PrefixIndex(cols: seq<seq<int>>, where: int): (idx: seq<int>)
    ensures |idx| == |cols|
  {
    seq(|cols|, k requires 0 <= k < |cols| => where + |Flatten(cols[..k])|)
  }

  /** The matrix whose columns are `cols`, allocated for `n` vertices and `m` edges. */
  function Build(n: int, m: int, cols: seq<seq<int>>): Csc
    requires |Flatten(cols)| <= m
  {
    Csc(n, m, PrefixIndex(cols, 0) + [m], Flatten(cols) + Zeros(m - |Flatten(cols)|))
  }

  /** A file `readFile` accepts. */
  predicate WellFormed(lines: seq<string>, checkOrdinals: bool)
  {
    && HeaderOk(lines)
    && var n, m := ParseInt(lines[1]).value, ParseInt(lines[2]).value;
    && LinesOk(LexAll(lines[3..]), 0, n, checkOrdinals)
    && |Flatten(Columns(LexAll(lines[3..]), n))| <= m
  }

  // ---------------------------------------------------------------------------
  // Lemmas about the parser
  // ---------------------------------------------------------------------------

  lemma {:induction false} StoreValuesFit(values: seq<Option<int>>, where: int, m: int)
    ensures StoreValues(values, where, m).Ok? ==>
      |StoreValues(values, where, m).value| == |values| && (values == [] || (0 <= where && where + |values| <= m))
  {
    if values != [] {
      StoreValuesFit(values[1..], where + 1, m);
    }
  }

  /** Storing succeeds exactly when every token parses and they all fit. */
  lemma {:induction false} StoreValuesSpec(values: seq<Option<int>>, where: int, m: int)
    requires 0 <= where
    ensures StoreValues(values, where, m).Ok? <==>
      AllParsed(values) && (values == [] || where + |values| <= m)
    ensures StoreValues(values, where, m).Ok? ==> StoreValues(values, where, m).value == Values(values)
  {
    if values != [] {
      StoreValuesSpec(values[1..], where + 1, m);
      assert values == [values[0]] + values[1..];
      assert forall k :: 1 <= k < |values| ==> values[k] == values[1..][k - 1];
      if StoreValues(values, where, m).Ok? {
        assert Values(values) == [values[0].value] + Values(values[1..]);
      }
    }
  }

  /** One vertex line is read exactly when it is well formed and its sources fit. */
  lemma ReadLineSpec(lx: Lexed, i: int, m: int, c: bool, where: int)
    requires 0 <= where
    ensures ReadLine(lx, i, m, c, where).Ok? <==>
      LineOk(lx, i, c) && (lx.sources == [] || where + |lx.sources| <= m)
    ensures ReadLine(lx, i, m, c, where).Ok? ==> ReadLine(lx, i, m, c, where).value == Values(lx.sources)
  {
    StoreValuesSpec(lx.sources, where, m);
  }

  lemma FlattenCons(c0: seq<int>, rest: seq<seq<int>>)
    ensures Flatten([c0] + rest) == c0 + Flatten(rest)
  {
    assert ([c0] + rest)[1..] == rest;
  }

  lemma PrefixIndexCons(c0: seq<int>, rest: seq<seq<int>>, where: int)
    ensures PrefixIndex([c0] + rest, where) == [where] + PrefixIndex(rest, where + |c0|)
  {
    var cols := [c0] + rest;
    forall k | 1 <= k < |cols|
      ensures PrefixIndex(cols, where)[k] == where + |c0| + |Flatten(rest[..k - 1])|
    {
      assert cols[..k] == [c0] + rest[..k - 1];
      FlattenCons(c0, rest[..k - 1]);
    }
    assert cols[..0] == [];
  }

  /**
   The vertex loop succeeds exactly when the remaining vertex lines are present
   and well formed and their sources fit in `sources[where..m)`; it then writes
   the running totals into `index` and the concatenated source lists.
   */
  lemma {:induction false} ReadColumnsSpec(lxs: seq<Lexed>, i: int, n: int, m: int, c: bool, where: int)
    requires i <= n && 0 <= where <= m
    ensures ReadColumns(lxs, i, n, m, c, where).Ok? <==>
      LinesOk(lxs, i, n - i, c) && where + |Flatten(Columns(lxs, n - i))| <= m
    ensures ReadColumns(lxs, i, n, m, c, where).Ok? ==>
      var cols := Columns(lxs, n - i);
      ReadColumns(lxs, i, n, m, c, where).value == (PrefixIndex(cols, where), Flatten(cols))
    decreases n - i
  {
    if i < n && lxs != [] {
      ReadLineSpec(lxs[0], i, m, c, where);
      var col := Values(lxs[0].sources);
      var rest := Columns(lxs[1..], n - i - 1);
      assert Columns(lxs, n - i) == [col] + rest;
      FlattenCons(col, rest);
      if ReadLine(lxs[0], i, m, c, where).Ok? {
        ReadColumnsUnfold(lxs, i, n, m, c, where, col);
        ReadColumnsSpec(lxs[1..], i + 1, n, m, c, where + |col|);
        PrefixIndexCons(col, rest, where);
      }
    }
  }

  lemma ReadColumnsUnfold(lxs: seq<Lexed>, i: int, n: int, m: int, c: bool, where: int, col: seq<int>)
    requires i < n && lxs != []
    requires ReadLine(lxs[0], i, m, c, where) == Ok(col)
    ensures ReadColumns(lxs, i, n, m, c, where) ==
      match ReadColumns(lxs[1..], i + 1, n, m, c, where + |col|)
        case Err(e) => Err(e)
        case Ok((idx, srcs)) => Ok(([where] + idx, col + srcs))
  {
  }

  /** `readFile` accepts exactly the well-formed files, and builds the matrix of their columns. */
  lemma ReadFileSpec(lines: seq<string>, c: bool)
    ensures ReadFile(lines, c).Ok? <==> WellFormed(lines, c)
    ensures ReadFile(lines, c).Ok? ==>
      WellFormed(lines, c) &&
      var n, m := ParseInt(lines[1]).value, ParseInt(lines[2]).value;
      ReadFile(lines, c).value == Build(n, m, Columns(LexAll(lines[3..]), n))
  {
    if HeaderOk(lines) {
      var n, m := ParseInt(lines[1]).value, ParseInt(lines[2]).value;
      var lxs := LexAll(lines[3..]);
      ReadFileColumnsResult(lines, c, n, m, lxs);
      ColumnsBuild(lxs, n, m, c, ReadFile(lines, c));
    } else {
      assert ReadHeader(lines).Err?;
    }
  }

  lemma ReadFileColumnsResult(lines: seq<string>, c: bool, n: int, m: int, lxs: seq<Lexed>)
    requires ReadHeader(lines) == Ok((n, m)) && |lines| >= 3 && lxs == LexAll(lines[3..])
    ensures ReadFile(lines, c) == match ReadColumns(lxs, 0, n, m, c, 0)
      case Err(e) => Err(e)
      case Ok((idx, srcs)) => Ok(Csc(n, m, idx + [m], srcs + Zeros(m - |srcs|)))
  {
  }

  lemma ColumnsBuild(lxs: seq<Lexed>, n: int, m: int, c: bool, r: Result<Csc>)
    requires 0 <= n && 0 <= m
    requires r == match ReadColumns(lxs, 0, n, m, c, 0)
      case Err(e) => Err(e)
      case Ok((idx, srcs)) => Ok(Csc(n, m, idx + [m], srcs + Zeros(m - |srcs|)))
    ensures r.Ok? <==> LinesOk(lxs, 0, n, c) && |Flatten(Columns(lxs, n))| <= m
    ensures r.Ok? ==> r.value == Build(n, m, Columns(lxs, n))
  {
    ReadColumnsSpec(lxs, 0, n, m, c, 0);
  }

  lemma PrefixLengths(cols: seq<seq<int>>, i: int, j: int)
    requires 0 <= i <= j <= |cols|
    ensures |Flatten(cols[..i])| <= |Flatten(cols[..j])| <= |Flatten(cols)|
    ensures Flatten(cols[..j]) == Flatten(cols[..i]) + Flatten(cols[i..j])
  {
    assert cols[..j] == cols[..i] + cols[i..j];
    FlattenAppend(cols[..i], cols[i..j]);
    assert cols == cols[..j] + cols[j..];
    FlattenAppend(cols[..j], cols[j..]);
  }

  /** The matrix built from any columns satisfies the compressed-column invariant. */
  lemma BuildValid(n: int, m: int, cols: seq<seq<int>>)
    requires n == |cols| && |Flatten(cols)| <= m
    ensures Valid(Build(n, m, cols))
  {
    var g := Build(n, m, cols);
    forall i, j | 0 <= i <= j <= n
      ensures g.index[i] <= g.index[j]
    {
      if j < n {
        PrefixLengths(cols, i, j);
      } else if i < n {
        PrefixLengths(cols, i, n);
        assert cols[..n] == cols;
      }
    }
    if n > 0 {
      assert cols[..0] == [];
    }
  }

  /**
   What a successful `readFile` leaves behind: a valid matrix with the header
   counts, `index[i]` the number of sources on the lines before vertex `i`,
   the sources of all lines in file order, then zeros up to `m`, and `index[n] = m`
   however many sources the lines held.
   */
  lemma ReadFileResult(lines: seq<string>, c: bool)
    requires ReadFile(lines, c).Ok?
    ensures WellFormed(lines, c)
    ensures
      var g, n, m := ReadFile(lines, c).value, ParseInt(lines[1]).value, ParseInt(lines[2]).value;
      var cols := Columns(LexAll(lines[3..]), n);
      && Valid(g)
      && g.numVertices == n && g.numEdges == m
      && g.index[n] == m
      && (forall i :: 0 <= i < n ==> g.index[i] == |Flatten(cols[..i])|)
      && g.sources[..|Flatten(cols)|] == Flatten(cols)
      && (forall k :: |Flatten(cols)| <= k < m ==> g.sources[k] == 0)
  {
    ReadFileSpec(lines, c);
    var n, m := ParseInt(lines[1]).value, ParseInt(lines[2]).value;
    BuildValid(n, m, Columns(LexAll(lines[3..]), n));
  }

  lemma BuildColumn(n: int, m: int, cols: seq<seq<int>>, i: int)
    requires n == |cols| && |Flatten(cols)| == m && 0 <= i < n
    ensures Valid(Build(n, m, cols))
    ensures Build(n, m, cols).sources[Build(n, m, cols).index[i]..Build(n, m, cols).index[i + 1]] == cols[i]
  {
    BuildValid(n, m, cols);
    var g := Build(n, m, cols);
    PrefixLengths(cols, i, i + 1);
    PrefixLengths(cols, i + 1, n);
    assert cols[i..i + 1] == [cols[i]];
    assert Flatten([cols[i]]) == cols[i] by {
      assert [cols[i]][1..] == [];
    }
    assert cols[..n] == cols;
    assert g.index[i] == |Flatten(cols[..i])|;
    assert g.index[i + 1] == |Flatten(cols[..i + 1])|;
    assert g.sources == Flatten(cols) by {
      assert Zeros(0) == [];
    }
    assert Flatten(cols) == Flatten(cols[..i + 1]) + Flatten(cols[i + 1..n]);
  }

  /**
   When the lines hold exactly `m` sources in all, `index[0] = 0` and column `i`
   of the matrix is the source list of line `i`, in order.
   */
  lemma ReadFileColumns(lines: seq<string>, c: bool)
    requires ReadFile(lines, c).Ok?
    requires WellFormed(lines, c)
    requires |Flatten(Columns(LexAll(lines[3..]), ParseInt(lines[1]).value))| == ParseInt(lines[2]).value
    ensures
      var g, n := ReadFile(lines, c).value, ParseInt(lines[1]).value;
      var cols := Columns(LexAll(lines[3..]), n);
      && Valid(g) && g.numVertices == n
      && g.index[0] == 0
      && forall i :: 0 <= i < n ==> g.sources[g.index[i]..g.index[i + 1]] == cols[i]
  {
    ReadFileSpec(lines, c);
    var n, m := ParseInt(lines[1]).value, ParseInt(lines[2]).value;
    var cols := Columns(LexAll(lines[3..]), n);
    BuildValid(n, m, cols);
    if n > 0 {
      assert cols[..0] == [];
    }
    forall i | 0 <= i < n
      ensures Build(n, m, cols).sources[Build(n, m, cols).index[i]..Build(n, m, cols).index[i + 1]] == cols[i]
    {
      BuildColumn(n, m, cols, i);
    }
  }

  lemma {:induction false} ReadColumnsPremature(lxs: seq<Lexed>, i: int, n: int, m: int, c: bool, where: int)
    requires i <= n && |lxs| < n - i && 0 <= where
    requires LinesOk(lxs, i, |lxs|, c)
    requires where + |Flatten(Columns(lxs, |lxs|))| <= m
    ensures ReadColumns(lxs, i, n, m, c, where) == Err(PrematureEndOfFile)
    decreases |lxs|
  {
    if lxs != [] {
      var col := Values(lxs[0].sources);
      var tail := lxs[1..];
      var rest := Columns(tail, |tail|);
      assert Columns(lxs, |lxs|) == [col] + rest;
      FlattenCons(col, rest);
      ReadLineSpec(lxs[0], i, m, c, where);
      ReadColumnsUnfold(lxs, i, n, m, c, where, col);
      ReadColumnsPremature(tail, i + 1, n, m, c, where + |col|);
    }
  }

  /** A well-formed file cut short: fewer than `n` vertex lines, all of them well formed. */
  predicate MissingVertexLines(lines: seq<string>, c: bool)
  {
    && HeaderOk(lines)
    && var n, m := ParseInt(lines[1]).value, ParseInt(lines[2]).value;
    && |lines| - 3 < n
    && LinesOk(LexAll(lines[3..]), 0, |lines| - 3, c)
    && |Flatten(Columns(LexAll(lines[3..]), |lines| - 3))| <= m
  }

  /**
   The error cases of `readFile`: a missing first line or a missing count line
   is a premature end of file, a first line other than `CSC` or `CSC-CSR` in any
   case is a header error, and running out of vertex lines before vertex `n` is a
   premature end of file when the lines present are well formed.
   */
  lemma ReadFileErrors(lines: seq<string>, c: bool)
    ensures lines == [] ==> ReadFile(lines, c) == Err(PrematureEndOfFile)
    ensures lines != [] && !IsHeader(lines[0]) ==> ReadFile(lines, c) == Err(HeaderFormat)
    ensures |lines| == 1 && IsHeader(lines[0]) ==> ReadFile(lines, c) == Err(PrematureEndOfFile)
    ensures |lines| == 2 && IsHeader(lines[0]) && ParseInt(lines[1]).Some? ==>
      ReadFile(lines, c) == Err(PrematureEndOfFile)
    ensures MissingVertexLines(lines, c) ==> ReadFile(lines, c) == Err(PrematureEndOfFile)
  {
    if MissingVertexLines(lines, c) {
      var n, m := ParseInt(lines[1]).value, ParseInt(lines[2]).value;
      ReadColumnsPremature(LexAll(lines[3..]), 0, n, m, c, 0);
    }
  }

  // ---------------------------------------------------------------------------
  // Writing a CSC file
  // ---------------------------------------------------------------------------

  function DecimalStrings(values: seq<int>): (tokens: seq<string>)
    ensures |tokens| == |values|
  {
    seq(|values|, k requires 0 <= k < |values| => DecimalString(values[k]))
  }

  /** The line of vertex `i` with in-neighbours `sources`: `i s1 s2 ...`. */
  function FormatLine(i: int, sources: seq<int>): string
  {
    Join([DecimalString(i)] + DecimalStrings(sources))
  }

  /** The CSC file of the graph whose vertex `i` has the in-neighbours `adj[i]`. */
  function Format(adj: seq<seq<int>>): seq<string>
  {
    ["CSC", DecimalString(|adj|), DecimalString(|Flatten(adj)|)] + FormatLines(adj)
  }

  /** The vertex lines of the file, one per vertex in order. */
  function FormatLines(adj: seq<seq<int>>): (body: seq<string>)
    ensures |body| == |adj|
  {
    seq(|adj|, i requires 0 <= i < |adj| => FormatLine(i, adj[i]))
  }

  predicate IntValues(s: seq<int>)
  {
    forall k :: 0 <= k < |s| ==> IntMin <= s[k] <= IntMax
  }

  /** The lexed form of a value token that parsed to `v`. */
  function Parsed(values: seq<int>): (ps: seq<Option<int>>)
    ensures |ps| == |values|
  {
    seq(|values|, k requires 0 <= k < |values| => Some(values[k]))
  }

  /** The line written for vertex `i` lexes back to its ordinal and its sources. */
  lemma FormatLineReads(i: int, sources: seq<int>)
    requires 0 <= i <= IntMax && IntValues(sources)
    ensures Lex(FormatLine(i, sources)) == Lexed(Some(Some(i)), Parsed(sources))
  {
    var tokens := [DecimalString(i)] + DecimalStrings(sources);
    forall k | 0 <= k < |tokens|
      ensures tokens[k] != "" && ' ' !in tokens[k]
    {
      var v := if k == 0 then i else sources[k - 1];
      assert tokens[k] == DecimalString(v);
      NoSpaceInDecimalString(v);
    }
    SplitJoin(tokens);
    assert tokens[1..] == DecimalStrings(sources);
    forall k | 0 <= k < |sources|
      ensures ParseInt(DecimalStrings(sources)[k]) == Some(sources[k])
    {
      ParseDecimalString(sources[k]);
    }
    ParseDecimalString(i);
  }

  /** `LinesOk` read line by line. */
  lemma {:induction false} LinesOkAll(lxs: seq<Lexed>, first: int, count: nat, c: bool)
    ensures LinesOk(lxs, first, count, c) <==>
      count <= |lxs| && forall k :: 0 <= k < count ==> LineOk(lxs[k], first + k, c)
    decreases count
  {
    if count > 0 && lxs != [] {
      LinesOkAll(lxs[1..], first + 1, count - 1, c);
      assert forall k :: 0 <= k < count - 1 && k < |lxs| - 1 ==> lxs[1..][k] == lxs[k + 1];
    }
  }

  lemma {:induction false} ColumnsOfFormat(lxs: seq<Lexed>, adj: seq<seq<int>>, first: int)
    requires |lxs| == |adj|
    requires forall k :: 0 <= k < |adj| ==> lxs[k] == Lexed(Some(Some(first + k)), Parsed(adj[k]))
    ensures forall c :: LinesOk(lxs, first, |adj|, c)
    ensures Columns(lxs, |adj|) == adj
  {
    if adj != [] {
      assert forall k :: 0 <= k < |adj| - 1 ==> lxs[1..][k] == lxs[k + 1];
      ColumnsOfFormat(lxs[1..], adj[1..], first + 1);
      assert Values(Parsed(adj[0])) == adj[0];
      assert adj == [adj[0]] + adj[1..];
    }
  }

  /**
   Reading back the file written for adjacency lists `adj` gives the matrix
   whose column `i` is `adj[i]`: `index` holds the running totals of the list
   lengths and `sources` their concatenation, with or without assertions.
   */
  lemma FormatRoundTrip(adj: seq<seq<int>>, c: bool)
    requires |adj| < IntMax && |Flatten(adj)| <= IntMax
    requires forall i :: 0 <= i < |adj| ==> IntValues(adj[i])
    ensures ReadFile(Format(adj), c) ==
      Ok(Csc(|adj|, |Flatten(adj)|, PrefixIndex(adj, 0) + [|Flatten(adj)|], Flatten(adj)))
  {
    var lines := Format(adj);
    FormatHeader(adj);
    FormatBody(adj, c);
    assert lines[3..] == FormatLines(adj);
    ReadFileSpec(lines, c);
    BuildExact(|adj|, adj);
  }

  lemma FormatHeader(adj: seq<seq<int>>)
    requires |adj| < IntMax && |Flatten(adj)| <= IntMax
    ensures HeaderOk(Format(adj))
    ensures ParseInt(Format(adj)[1]) == Some(|adj|) && ParseInt(Format(adj)[2]) == Some(|Flatten(adj)|)
  {
    var lines := Format(adj);
    assert EqualsIgnoreCase(lines[0], "CSC");
    ParseDecimalString(|adj|);
    ParseDecimalString(|Flatten(adj)|);
  }

  lemma FormatBody(adj: seq<seq<int>>, c: bool)
    requires |adj| < IntMax
    requires forall i :: 0 <= i < |adj| ==> IntValues(adj[i])
    ensures LinesOk(LexAll(FormatLines(adj)), 0, |adj|, c)
    ensures Columns(LexAll(FormatLines(adj)), |adj|) == adj
  {
    var lxs := LexAll(FormatLines(adj));
    forall k | 0 <= k < |adj|
      ensures lxs[k] == Lexed(Some(Some(k)), Parsed(adj[k]))
    {
      FormatLineReads(k, adj[k]);
    }
    ColumnsOfFormat(lxs, adj, 0);
  }

  /** With exactly `m` sources, no zero padding is added. */
  lemma BuildExact(n: int, cols: seq<seq<int>>)
    ensures Build(n, |Flatten(cols)|, cols) == Csc(n, |Flatten(cols)|, PrefixIndex(cols, 0) + [|Flatten(cols)|], Flatten(cols))
  {
    assert Zeros(0) == [];
    assert Flatten(cols) + Zeros(0) == Flatten(cols);
  }

  // ---------------------------------------------------------------------------
  // Traversals
  // ---------------------------------------------------------------------------

  /** The relax calls for the in-edges of vertex `i`, in storage order. */
  function Column(g: Csc, i: int): (t: Trace)
    requires Valid(g) && 0 <= i < g.numVertices
    ensures |t| == g.index[i + 1] - g.index[i]
    ensures forall k :: 0 <= k < |t| ==> t[k] == (g.sources[g.index[i] + k], i)
  {
    assert g.index[i] <= g.index[i + 1] <= g.index[g.numVertices];
    seq(g.index[i + 1] - g.index[i], k requires 0 <= k < g.index[i + 1] - g.index[i] => (g.sources[g.index[i] + k], i))
  }

  /**
   `ranged_edgemap(relax, from, to)`, with `first = from` and `last = to`: the
   in-edges of vertices `first..last` in turn. A vertex outside `0..n-1` is an
   array index out of bounds, raised after the calls for the vertices before it.
   */
  function RangedEdgeMap(g: Csc, first: int, last: int): Run
    requires Valid(g)
    decreases last - first
  {
    if first > last then Run([], None)
    else if !(0 <= first < g.numVertices) then Run([], Some(IndexOutOfBounds))
    else Prepend(Column(g, first), RangedEdgeMap(g, first + 1, last))
  }

  /** Position `p` of `sources` lies in the column of vertex `d`. */
  predicate InColumn(g: Csc, p: int, d: int)
    requires Valid(g)
  {
    0 <= d < g.numVertices && g.index[d] <= p < g.index[d + 1]
  }

  /**
   Within `0..n-1`, the ranged edge map calls relax once for each stored source
   from `index[first]` to `index[last + 1]`, in storage order, with the vertex
   whose column holds it as destination, and raises nothing.
   */
  lemma {:induction false} RangedEdgeMapSpec(g: Csc, first: int, last: int)
    requires Valid(g) && 0 <= first && last < g.numVertices
    ensures RangedEdgeMap(g, first, last).error.None?
    ensures |RangedEdgeMap(g, first, last).trace| == (if first <= last then g.index[last + 1] - g.index[first] else 0)
    ensures forall k :: 0 <= k < |RangedEdgeMap(g, first, last).trace| ==>
      (RangedEdgeMap(g, first, last).trace[k].0 == g.sources[g.index[first] + k] &&
       first <= RangedEdgeMap(g, first, last).trace[k].1 <= last &&
       InColumn(g, g.index[first] + k, RangedEdgeMap(g, first, last).trace[k].1))
    decreases last - first
  {
    if first <= last {
      RangedEdgeMapSpec(g, first + 1, last);
      var col, rest := Column(g, first), RangedEdgeMap(g, first + 1, last).trace;
      var t := RangedEdgeMap(g, first, last).trace;
      assert t == col + rest;
      forall k | |col| <= k < |t|
        ensures var p := g.index[first] + k; t[k].0 == g.sources[p] && first <= t[k].1 <= last && InColumn(g, p, t[k].1)
      {
        assert t[k] == rest[k - |col|];
      }
    }
  }

  /**
   Outside `0..n-1`, the ranged edge map makes the calls for the vertices of
   the range that exist, up to the first one that does not, and then raises an
   index out of bounds.
   */
  lemma {:induction false} RangedEdgeMapOutOfRange(g: Csc, first: int, last: int)
    requires Valid(g) && first <= last && !(0 <= first && last < g.numVertices)
    ensures RangedEdgeMap(g, first, last).error == Some(IndexOutOfBounds)
    ensures RangedEdgeMap(g, first, last).trace == (if first < 0 then [] else RangedEdgeMap(g, first, g.numVertices - 1).trace)
    decreases last - first
  {
    if 0 <= first < g.numVertices {
      RangedEdgeMapOutOfRange(g, first + 1, last);
    }
  }

  /** Splitting a range in two gives the same calls and the same outcome. */
  lemma {:induction false} RangedEdgeMapSplit(g: Csc, a: int, b: int, c: int)
    requires Valid(g) && a <= b + 1 && b <= c
    ensures RangedEdgeMap(g, a, c) == Then(RangedEdgeMap(g, a, b), RangedEdgeMap(g, b + 1, c))
    decreases b - a
  {
    if a <= b && 0 <= a < g.numVertices {
      RangedEdgeMapSplit(g, a + 1, b, c);
      var col := Column(g, a);
      var x, y := RangedEdgeMap(g, a + 1, b), RangedEdgeMap(g, b + 1, c);
      if x.error.None? {
        assert col + (x.trace + y.trace) == (col + x.trace) + y.trace;
      }
    }
  }

  /** The calls of `t` whose destination lies in `first..last`, in order. */
  function Keep(t: Trace, first: int, last: int): Trace
  {
    if t == [] then [] else (if first <= t[0].1 <= last then [t[0]] else []) + Keep(t[1..], first, last)
  }

  lemma {:induction false} KeepAppend(t: Trace, u: Trace, first: int, last: int)
    ensures Keep(t + u, first, last) == Keep(t, first, last) + Keep(u, first, last)
  {
    if t != [] {
      assert (t + u)[1..] == t[1..] + u;
      KeepAppend(t[1..], u, first, last);
    } else {
      assert t + u == u;
    }
  }

  lemma {:induction false} KeepAll(t: Trace, first: int, last: int)
    requires forall k :: 0 <= k < |t| ==> first <= t[k].1 <= last
    ensures Keep(t, first, last) == t
  {
    if t != [] {
      KeepAll(t[1..], first, last);
    }
  }

  lemma {:induction false} KeepNone(t: Trace, first: int, last: int)
    requires forall k :: 0 <= k < |t| ==> !(first <= t[k].1 <= last)
    ensures Keep(t, first, last) == []
  {
    if t != [] {
      KeepNone(t[1..], first, last);
    }
  }

  /** Calls whose destinations lie before, inside and after the range keep only the middle ones. */
  lemma KeepMiddle(x: Trace, y: Trace, z: Trace, first: int, last: int)
    requires forall k :: 0 <= k < |x| ==> x[k].1 < first
    requires forall k :: 0 <= k < |y| ==> first <= y[k].1 <= last
    requires forall k :: 0 <= k < |z| ==> last < z[k].1
    ensures Keep(x + (y + z), first, last) == y
  {
    KeepAppend(x, y + z, first, last);
    KeepAppend(y, z, first, last);
    KeepNone(x, first, last);
    KeepAll(y, first, last);
    KeepNone(z, first, last);
  }

  /** Within `0..n-1` the ranged edge map raises nothing and calls only destinations of its range. */
  lemma RangedEdgeMapDests(g: Csc, first: int, last: int)
    requires Valid(g) && 0 <= first && last < g.numVertices
    ensures RangedEdgeMap(g, first, last).error.None?
    ensures forall k :: 0 <= k < |RangedEdgeMap(g, first, last).trace| ==>
      first <= RangedEdgeMap(g, first, last).trace[k].1 <= last
  {
    RangedEdgeMapSpec(g, first, last);
  }

  /** The whole vertex range is the part before `first`, the range itself and the part after `last`. */
  lemma RangedEdgeMapThree(g: Csc, first: int, last: int)
    requires Valid(g) && 0 <= first <= last < g.numVertices
    ensures RangedEdgeMap(g, 0, g.numVertices - 1).trace ==
      RangedEdgeMap(g, 0, first - 1).trace + (RangedEdgeMap(g, first, last).trace + RangedEdgeMap(g, last + 1, g.numVertices - 1).trace)
  {
    var n := g.numVertices;
    RangedEdgeMapSplit(g, 0, first - 1, n - 1);
    RangedEdgeMapSplit(g, first, last, n - 1);
    RangedEdgeMapDests(g, 0, first - 1);
    RangedEdgeMapDests(g, first, last);
  }

  /**
   Within `0..n-1`, the ranged edge map makes exactly the calls of the full
   edge map whose destination lies in the range, in the same order; an empty
   range makes none.
   */
  lemma RangedEdgeMapFilter(g: Csc, first: int, last: int)
    requires Valid(g) && 0 <= first && last < g.numVertices
    ensures RangedEdgeMap(g, first, last).trace == Keep(RangedEdgeMap(g, 0, g.numVertices - 1).trace, first, last)
  {
    if first > last {
      RangedEdgeMapDests(g, 0, g.numVertices - 1);
      KeepNone(RangedEdgeMap(g, 0, g.numVertices - 1).trace, first, last);
    } else {
      RangedEdgeMapThree(g, first, last);
      RangedEdgeMapKeep(g, first, last, RangedEdgeMap(g, 0, first - 1).trace, RangedEdgeMap(g, first, last).trace,
        RangedEdgeMap(g, last + 1, g.numVertices - 1).trace);
    }
  }

  lemma RangedEdgeMapKeep(g: Csc, first: int, last: int, x: Trace, y: Trace, z: Trace)
    requires Valid(g) && 0 <= first <= last < g.numVertices
    requires x == RangedEdgeMap(g, 0, first - 1).trace
    requires y == RangedEdgeMap(g, first, last).trace
    requires z == RangedEdgeMap(g, last + 1, g.numVertices - 1).trace
    ensures Keep(x + (y + z), first, last) == y
  {
    RangedEdgeMapDests(g, 0, first - 1);
    RangedEdgeMapDests(g, first, last);
    RangedEdgeMapDests(g, last + 1, g.numVertices - 1);
    KeepMiddle(x, y, z, first, last);
  }

  /** The calls `edgemap` makes, read off the matrix arrays. */
  predicate StorageOrder(g: Csc, t: Trace)
    requires Valid(g)
  {
    && |t| == g.index[g.numVertices] - g.index[0]
    && forall k :: 0 <= k < |t| ==> t[k].0 == g.sources[g.index[0] + k] && InColumn(g, g.index[0] + k, t[k].1)
  }

  lemma ColumnStep(g: Csc, i: int, k: int)
    requires Valid(g) && 0 <= i < g.numVertices && 0 <= k < g.index[i + 1] - g.index[i]
    ensures Column(g, i)[..k + 1] == Column(g, i)[..k] + [(g.sources[g.index[i] + k], i)]
  {
  }

  /** The inner loop of `edgemap`: the calls for the stored sources of column `i`, appended to `t0`. */
  method AppendColumn(g: Csc, i: int, t0: Trace) returns (t: Trace)
    requires Valid(g) && 0 <= i < g.numVertices
    ensures t == t0 + Column(g, i)
  {
    var j := g.index[i];
    assert g.index[i] <= g.index[i + 1] <= g.index[g.numVertices];
    t := t0;
    while j < g.index[i + 1]
      invariant g.index[i] <= j <= g.index[i + 1]
      invariant t == t0 + Column(g, i)[..j - g.index[i]]
    {
      ColumnStep(g, i, j - g.index[i]);
      t := t + [(g.sources[j], i)];
      j := j + 1;
    }
    assert Column(g, i)[..j - g.index[i]] == Column(g, i);
  }

  /** The calls for vertices `0..i-1` followed by the column of `i` are the calls for `0..i`. */
  lemma EdgeMapStep(g: Csc, i: int, t: Trace)
    requires Valid(g) && 0 <= i < g.numVertices && Run(t, None) == RangedEdgeMap(g, 0, i - 1)
    ensures Run(t + Column(g, i), None) == RangedEdgeMap(g, 0, i)
  {
    RangedEdgeMapSplit(g, 0, i - 1, i);
    assert RangedEdgeMap(g, i, i) == Run(Column(g, i), None);
  }

  /**
   `edgemap(relax)`: one relax call per stored edge, sources in storage order,
   each with the vertex whose column holds it; the same calls as
   `ranged_edgemap` over all vertices.
   */
  method EdgeMap(g: Csc) returns (t: Trace)
    requires Valid(g)
    ensures StorageOrder(g, t)
    ensures Run(t, None) == RangedEdgeMap(g, 0, g.numVertices - 1)
  {
    var n := g.numVertices;
    t := [];
    var i := 0;
    while i < n
      invariant 0 <= i <= n
      invariant Run(t, None) == RangedEdgeMap(g, 0, i - 1)
    {
      var t0 := t;
      t := AppendColumn(g, i, t0);
      EdgeMapStep(g, i, t0);
      i := i + 1;
    }
    RangedEdgeMapSpec(g, 0, n - 1);
  }

  /** `outdeg` after every vertex in `s` has had its slot incremented once. */
  function Counted(outdeg: seq<int>, s: seq<int>): (r: seq<int>)
    ensures |r| == |outdeg|
  {
    seq(|outdeg|, v requires 0 <= v < |outdeg| => outdeg[v] + multiset(s)[v])
  }

  predicate SourcesIn(s: seq<int>, len: int)
  {
    forall k :: 0 <= k < |s| ==> 0 <= s[k] < len
  }

  /** Counting one more source increments its slot only, and keeps the sources in range. */
  lemma CountedStep(outdeg: seq<int>, s: seq<int>, i: int, len: int)
    requires 0 <= i < |s| && 0 <= s[i] < |outdeg| == len && SourcesIn(s[..i], len)
    ensures SourcesIn(s[..i + 1], len)
    ensures Counted(outdeg, s[..i + 1]) == Counted(outdeg, s[..i])[s[i] := Counted(outdeg, s[..i])[s[i]] + 1]
  {
    assert s[..i + 1] == s[..i] + [s[i]];
  }

  /**
   `calculateOutDegree(outdeg)`: adds to `outdeg[v]` the number of stored
   edges whose source is `v`, so the total grows by the edge count. A source
   outside the array raises an index out of bounds, leaving the counts of the
   sources before it.
   */
  method CalculateOutDegree(g: Csc, outdeg: seq<int>) returns (r: seq<int>, error: Option<Error>)
    requires Valid(g)
    ensures error.None? <==> SourcesIn(g.sources, |outdeg|)
    ensures error.None? ==> r == Counted(outdeg, g.sources) && Sum(r) == Sum(outdeg) + g.numEdges
    ensures error.Some? ==> error == Some(IndexOutOfBounds)
    ensures error.Some? ==>
      exists k :: 0 <= k < g.numEdges && !(0 <= g.sources[k] < |outdeg|) &&
        SourcesIn(g.sources[..k], |outdeg|) && r == Counted(outdeg, g.sources[..k])
  {
    r := outdeg;
    var i := 0;
    assert g.sources[..0] == [];
    while i < g.numEdges
      invariant 0 <= i <= g.numEdges
      invariant SourcesIn(g.sources[..i], |outdeg|)
      invariant r == Counted(outdeg, g.sources[..i])
      invariant Sum(r) == Sum(outdeg) + i
    {
      var v := g.sources[i];
      if !(0 <= v < |r|) {
        return r, Some(IndexOutOfBounds);
      }
      CountedStep(outdeg, g.sources, i, |outdeg|);
      SumIncrement(r, v);
      r := r[v := r[v] + 1];
      i := i + 1;
    }
    assert g.sources[..i] == g.sources;
    error := None;
  }
}

=== FILE: sparse_matrix_csr_competition.dfy ===
/**
 The streaming edge-list matrix: a file of bytes with a three-line header
 (a tag, the vertex count, the edge count) followed by lines `s d1 ... dk`,
 one per source vertex. Opening the file scans the header and cuts the body
 into one byte range per thread, each range starting just after a newline;
 the edge map tokenizes every range on its own. The mapped file is a byte
 sequence here and each thread's relax calls are a trace.
 */
module SparseMatrixCsrCompetition {
  import opened Common
  import opened JavaText

  type byte = b: int | 0 <= b < 256

  const NL: byte := 10
  const SP: byte := 32

  /** The value Java's signed `byte` holds for the file byte `b`. */
  function Signed(b: byte): int
  {
    if b < 128 then b else b - 256
  }

  // ---------------------------------------------------------------------------
  // The header scan
  // ---------------------------------------------------------------------------

  /** The header values: the two counts and the offset just past the third newline. */
  datatype Header = Header(numVertices: int, numEdges: int, bodyStart: int)

  /** `v = v * 10 + b - 48` over the bytes `s[lo..hi]`, left to right. */
  function AccumulateRange(s: seq<byte>, lo: nat, hi: nat): int
    requires lo <= hi <= |s|
    decreases hi - lo
  {
    if lo == hi then 0 else AccumulateRange(s, lo, hi - 1) * 10 + Signed(s[hi - 1]) - 48
  }

  /** The value the header loop accumulates from a whole line. */
  function Accumulate(s: seq<byte>): int
  {
    AccumulateRange(s, 0, |s|)
  }

  /** Accumulating a stretch of `s` that spells `v` gives the value of `v`. */
  lemma {:induction false} AccumulateAt(s: seq<byte>, lo: nat, v: seq<byte>)
    requires lo + |v| <= |s|
    requires forall k :: 0 <= k < |v| ==> s[lo + k] == v[k]
    ensures AccumulateRange(s, lo, lo + |v|) == Accumulate(v)
    decreases |v|
  {
    if v != [] {
      var w := v[..|v| - 1];
      AccumulateAt(s, lo, w);
      AccumulateAt(v, 0, w);
    }
  }

  /** The position of the first newline at or after `start`, or `|s|` when there is none. */
  function NextNewline(s: seq<byte>, start: nat): (k: nat)
    requires start <= |s|
    ensures start <= k <= |s|
    ensures k < |s| ==> s[k] == NL
    decreases |s| - start
  {
    if start == |s| then |s|
    else if s[start] == NL then start
    else NextNewline(s, start + 1)
  }

  /** No newline comes between `start` and the next newline. */
  lemma {:induction false} NoNewlineBefore(s: seq<byte>, start: nat, q: nat)
    requires start <= |s| && start <= q < NextNewline(s, start)
    ensures s[q] != NL
    decreases |s| - start
  {
    if q > start {
      NoNewlineBefore(s, start + 1, q);
    }
  }

  /** The next newline after a newline-free stretch `start..end` is the one at `end`. */
  lemma {:induction false} NextNewlineAt(s: seq<byte>, start: nat, end: nat)
    requires start <= end < |s| && s[end] == NL
    requires forall q :: start <= q < end ==> s[q] != NL
    ensures NextNewline(s, start) == end
    decreases end - start
  {
    if start < end {
      NextNewlineAt(s, start + 1, end);
    }
  }

  /**
   The header as three newline-terminated lines: the counts are accumulated
   from the second and third lines, and a file with fewer than three newlines
   runs out of bytes.
   */
  function HeaderOf(file: seq<byte>): Result<Header>
  {
    var p1 := NextNewline(file, 0);
    if p1 == |file| then Err(BufferUnderflow)
    else
      var p2 := NextNewline(file, p1 + 1);
      if p2 == |file| then Err(BufferUnderflow)
      else
        var p3 := NextNewline(file, p2 + 1);
        if p3 == |file| then Err(BufferUnderflow)
        else Ok(Header(AccumulateRange(file, p1 + 1, p2), AccumulateRange(file, p2 + 1, p3), p3 + 1))
  }

  /**
   Where the header loop stands after reading `file[..pos]` with `newLines`
   newlines still to come.
   */
  predicate ScanState(file: seq<byte>, pos: nat, newLines: int, vertices: int, edges: int)
    requires pos <= |file|
  {
    var p1 := NextNewline(file, 0);
    if newLines == 3 then pos <= p1 && vertices == 0 && edges == 0
    else
      p1 < pos &&
      var p2 := NextNewline(file, p1 + 1);
      if newLines == 2 then pos <= p2 && vertices == AccumulateRange(file, p1 + 1, pos) && edges == 0
      else
        p2 < pos && vertices == AccumulateRange(file, p1 + 1, p2) &&
        var p3 := NextNewline(file, p2 + 1);
        if newLines == 1 then pos <= p3 && edges == AccumulateRange(file, p2 + 1, pos)
        else newLines == 0 && pos == p3 + 1 && edges == AccumulateRange(file, p2 + 1, p3)
  }

  /** One byte of the header loop keeps `ScanState`. */
  lemma ScanStep(file: seq<byte>, pos: nat, newLines: int, vertices: int, edges: int)
    requires pos < |file| && 1 <= newLines <= 3
    requires ScanState(file, pos, newLines, vertices, edges)
    ensures var b := file[pos];
      ScanState(file, pos + 1,
        if b == NL then newLines - 1 else newLines,
        if b != NL && newLines == 2 then vertices * 10 + Signed(b) - 48 else vertices,
        if b != NL && newLines == 1 then edges * 10 + Signed(b) - 48 else edges)
  {
    var p1 := NextNewline(file, 0);
    if newLines == 3 {
      if file[pos] == NL && pos < p1 { NoNewlineBefore(file, 0, pos); }
    } else {
      var p2 := NextNewline(file, p1 + 1);
      if newLines == 2 {
        if file[pos] == NL {
          if pos < p2 { NoNewlineBefore(file, p1 + 1, pos); }
        }
      } else {
        var p3 := NextNewline(file, p2 + 1);
        if file[pos] == NL {
          if pos < p3 { NoNewlineBefore(file, p2 + 1, pos); }
        }
      }
    }
  }

  /** The loop ends with the header values once the third newline is read. */
  lemma ScanDone(file: seq<byte>, pos: nat, vertices: int, edges: int)
    requires pos <= |file| && ScanState(file, pos, 0, vertices, edges)
    ensures HeaderOf(file) == Ok(Header(vertices, edges, pos))
  {
  }

  /** Running out of bytes before the third newline is what `HeaderOf` reports. */
  lemma ScanUnderflow(file: seq<byte>, newLines: int, vertices: int, edges: int)
    requires 1 <= newLines <= 3 && ScanState(file, |file|, newLines, vertices, edges)
    ensures HeaderOf(file) == Err(BufferUnderflow)
  {
  }

  /**
   The header loop of the constructor: it reads bytes until it has seen three
   newlines, accumulating the second line into the vertex count and the third
   into the edge count, and ignoring the first; the body starts where it stops.
   */
  method ScanHeader(file: seq<byte>) returns (r: Result<Header>)
    ensures r == HeaderOf(file)
  {
    var pos: nat := 0;
    var newLines := 3;
    var vertices := 0;
    var edges := 0;
    while newLines > 0
      invariant pos <= |file| && 0 <= newLines <= 3
      invariant ScanState(file, pos, newLines, vertices, edges)
      decreases |file| - pos
    {
      if pos == |file| {
        ScanUnderflow(file, newLines, vertices, edges);
        return Err(BufferUnderflow);
      }
      var prev := file[pos];
      ScanStep(file, pos, newLines, vertices, edges);
      pos := pos + 1;
      if prev == NL {
        newLines := newLines - 1;
      } else if newLines == 2 {
        vertices := vertices * 10 + Signed(prev) - 48;
      } else if newLines == 1 {
        edges := edges * 10 + Signed(prev) - 48;
      }
    }
    ScanDone(file, pos, vertices, edges);
    return Ok(Header(vertices, edges, pos));
  }

  /** The three header lines `tag`, `v` and `e`, each ended by a newline. */
  function HeaderLines(tag: seq<byte>, v: seq<byte>, e: seq<byte>): (h: seq<byte>)
    ensures |h| == |tag| + |v| + |e| + 3
  {
    tag + [NL] + v + [NL] + e + [NL]
  }

  /**
   For a file that starts with the lines `tag`, `V` and `E` the header holds
   the values accumulated from `V` and `E`, whatever the tag says, and the
   body starts right after the third newline.
   */
  lemma HeaderOfLayout(file: seq<byte>, tag: seq<byte>, v: seq<byte>, e: seq<byte>)
    requires NL !in tag && NL !in v && NL !in e
    requires |tag| + |v| + |e| + 3 <= |file| && file[..|tag| + |v| + |e| + 3] == HeaderLines(tag, v, e)
    ensures HeaderOf(file) == Ok(Header(Accumulate(v), Accumulate(e), |tag| + |v| + |e| + 3))
  {
    var p1 := |tag|;
    var p2 := p1 + 1 + |v|;
    var p3 := p2 + 1 + |e|;
    HeaderLinesNewlines(file, tag, v, e, p1, p2, p3);
    LayoutPositions(file, p1, p2, p3);
    AccumulateLine(file, p1 + 1, p2, v);
    AccumulateLine(file, p2 + 1, p3, e);
    HeaderOfAt(file, p1, p2, p3, Accumulate(v), Accumulate(e));
  }

  /** The only newlines among the three header lines are the ones ending them, at `p1`, `p2` and `p3`. */
  lemma HeaderLinesNewlines(file: seq<byte>, tag: seq<byte>, v: seq<byte>, e: seq<byte>, p1: nat, p2: nat, p3: nat)
    requires NL !in tag && NL !in v && NL !in e
    requires |tag| + |v| + |e| + 3 <= |file| && file[..|tag| + |v| + |e| + 3] == HeaderLines(tag, v, e)
    requires p1 == |tag| && p2 == p1 + 1 + |v| && p3 == p2 + 1 + |e|
    ensures forall k :: 0 <= k < |v| ==> file[p1 + 1 + k] == v[k]
    ensures forall k :: 0 <= k < |e| ==> file[p2 + 1 + k] == e[k]
    ensures p3 < |file| && file[p1] == NL && file[p2] == NL && file[p3] == NL
    ensures forall q :: 0 <= q < p3 && q != p1 && q != p2 ==> file[q] != NL
  {
    HeaderLinesBytes(file, tag, v, e);
    forall q | 0 <= q < p3 && q != p1 && q != p2
      ensures file[q] != NL
    {
      if q < p1 {
        assert tag[q] in tag;
      } else if q < p2 {
        assert v[q - p1 - 1] in v;
      } else {
        assert e[q - p2 - 1] in e;
      }
    }
  }

  /** The bytes `s[lo..hi]` spell `v`, so the header loop accumulates the value of `v` from them. */
  lemma AccumulateLine(s: seq<byte>, lo: nat, hi: nat, v: seq<byte>)
    requires hi == lo + |v| <= |s|
    requires forall k :: 0 <= k < |v| ==> s[lo + k] == v[k]
    ensures AccumulateRange(s, lo, hi) == Accumulate(v)
  {
    AccumulateAt(s, lo, v);
  }

  /** The first three newlines of a file whose header lines end at `p1`, `p2` and `p3`. */
  lemma LayoutPositions(file: seq<byte>, p1: nat, p2: nat, p3: nat)
    requires p1 < p2 < p3 < |file| && file[p1] == NL && file[p2] == NL && file[p3] == NL
    requires forall q :: 0 <= q < p3 && q != p1 && q != p2 ==> file[q] != NL
    ensures NextNewline(file, 0) == p1 && NextNewline(file, p1 + 1) == p2 && NextNewline(file, p2 + 1) == p3
  {
    NextNewlineAt(file, 0, p1);
    NextNewlineAt(file, p1 + 1, p2);
    NextNewlineAt(file, p2 + 1, p3);
  }

  /** Byte by byte, a file starting with the three header lines. */
  lemma HeaderLinesBytes(file: seq<byte>, tag: seq<byte>, v: seq<byte>, e: seq<byte>)
    requires |tag| + |v| + |e| + 3 <= |file| && file[..|tag| + |v| + |e| + 3] == HeaderLines(tag, v, e)
    ensures forall k :: 0 <= k < |tag| ==> file[k] == tag[k]
    ensures forall k :: 0 <= k < |v| ==> file[|tag| + 1 + k] == v[k]
    ensures forall k :: 0 <= k < |e| ==> file[|tag| + |v| + 2 + k] == e[k]
    ensures file[|tag|] == NL && file[|tag| + |v| + 1] == NL && file[|tag| + |v| + |e| + 2] == NL
  {
    var h := HeaderLines(tag, v, e);
    assert forall q :: 0 <= q < |h| ==> file[q] == h[q];
  }

  /** `HeaderOf` read off the positions of the first three newlines. */
  lemma HeaderOfAt(file: seq<byte>, p1: nat, p2: nat, p3: nat, vertices: int, edges: int)
    requires p1 < p2 < p3 < |file|
    requires NextNewline(file, 0) == p1 && NextNewline(file, p1 + 1) == p2 && NextNewline(file, p2 + 1) == p3
    requires vertices == AccumulateRange(file, p1 + 1, p2) && edges == AccumulateRange(file, p2 + 1, p3)
    ensures HeaderOf(file) == Ok(Header(vertices, edges, p3 + 1))
  {
  }

  /** The bytes of a string of ASCII characters. */
  predicate IsAscii(s: string)
  {
    forall i :: 0 <= i < |s| ==> s[i] as int < 128
  }

  function Ascii(s: string): (bs: seq<byte>)
    requires IsAscii(s)
    ensures |bs| == |s|
  {
    seq(|s|, i requires 0 <= i < |s| => s[i] as int)
  }

  /** A line of decimal digits accumulates to the number it spells. */
  lemma {:induction false} AccumulateDigits(s: string)
    requires AllDigits(s)
    ensures IsAscii(s)
    ensures Accumulate(Ascii(s)) == DigitsValue(s)
  {
    if s != [] {
      var t := s[..|s| - 1];
      AccumulateDigits(t);
      AccumulateAt(Ascii(s), 0, Ascii(t));
    }
  }

  /**
   A header whose count lines are the decimal texts of `v` and `e` reads back
   as `v` vertices and `e` edges.
   */
  lemma HeaderRoundTrip(tag: seq<byte>, v: nat, e: nat, body: seq<byte>)
    requires NL !in tag
    ensures IsAscii(Digits(v)) && IsAscii(Digits(e))
    ensures HeaderOf(HeaderLines(tag, Ascii(Digits(v)), Ascii(Digits(e))) + body) ==
      Ok(Header(v, e, |tag| + |Digits(v)| + |Digits(e)| + 3))
  {
    AccumulateDigits(Digits(v));
    AccumulateDigits(Digits(e));
    DigitsValueOfDigits(v);
    DigitsValueOfDigits(e);
    NoNewlineInDigits(Digits(v));
    NoNewlineInDigits(Digits(e));
    var h := HeaderLines(tag, Ascii(Digits(v)), Ascii(Digits(e)));
    PrefixOfAppend(h, body);
    HeaderOfLayout(h + body, tag, Ascii(Digits(v)), Ascii(Digits(e)));
  }

  lemma PrefixOfAppend(a: seq<byte>, b: seq<byte>)
    ensures (a + b)[..|a|] == a
  {
  }

  lemma NoNewlineInDigits(s: string)
    requires AllDigits(s)
    ensures IsAscii(s) && NL !in Ascii(s)
  {
    assert forall i :: 0 <= i < |s| ==> Ascii(s)[i] != NL;
  }

  // ---------------------------------------------------------------------------
  // Partition boundaries
  // ---------------------------------------------------------------------------

  /** `p` is the file size or just after a newline. */
  predicate Aligned(file: seq<byte>, p: int)
  {
    p == |file| || (0 < p <= |file| && file[p - 1] == NL)
  }

  /** Where the search for boundary `i` starts: `startingPos[i - 1] + bufferSize`, kept inside the file. */
  function Candidate(previous: int, bufferSize: int, size: int): int
  {
    if previous + bufferSize >= size then size - 1 else previous + bufferSize
  }

  /** `p` is the first aligned position after `start`. */
  predicate Snapped(file: seq<byte>, start: int, p: int)
  {
    0 <= start < p <= |file| && Aligned(file, p) && forall q :: start <= q < p - 1 ==> file[q] != NL
  }

  /** The stride between candidate boundaries: the body length divided by the thread count. */
  function BufferSize(size: int, bodyStart: int, T: int): (b: int)
    requires T >= 1
    ensures bodyStart <= size ==> 0 <= b <= size - bodyStart
  {
    if bodyStart <= size then DivBounds(size - bodyStart, T); (size - bodyStart) / T
    else (size - bodyStart) / T
  }

  /**
   What the constructor leaves in `startingPos` for `T` threads: the body
   start, then `T - 1` boundaries each snapped forward from the candidate
   `BufferSize` bytes past the one before it, then the file size.
   */
  predicate Boundaries(file: seq<byte>, T: int, pos: seq<int>)
  {
    && T >= 1
    && |pos| == T + 1
    && 1 <= pos[0] <= |file|
    && pos[T] == |file|
    && Chain(file, BufferSize(|file|, pos[0], T), pos[..T])
  }

  /**
   The boundaries are ordered and inside the body, and every interior one
   is just past a newline, the first such after its candidate.
   */
  lemma BoundariesFacts(file: seq<byte>, T: int, pos: seq<int>)
    requires Boundaries(file, T, pos)
    ensures forall i, j :: 0 <= i <= j <= T ==> pos[i] <= pos[j]
    ensures forall i :: 0 <= i <= T ==> pos[0] <= pos[i] <= |file|
    ensures forall i :: 0 < i < T ==> Aligned(file, pos[i])
    ensures forall i :: 0 < i < T ==> Snapped(file, Candidate(pos[i - 1], BufferSize(|file|, pos[0], T), |file|), pos[i])
  {
    var init := pos[..T];
    var bufferSize := BufferSize(|file|, pos[0], T);
    ChainFacts(file, bufferSize, init);
    assert pos == init + [|file|];
    SnocOrdered(init, |file|);
    SnocSnapped(file, bufferSize, init, |file|);
  }

  /**
   Boundaries built one at a time: each one after the first is snapped
   forward from the candidate `bufferSize` bytes past the one before it.
   */
  predicate Chain(file: seq<byte>, bufferSize: int, pos: seq<int>)
    decreases |pos|
  {
    |pos| >= 1 &&
    (|pos| > 1 ==>
      Chain(file, bufferSize, pos[..|pos| - 1]) &&
      Snapped(file, Candidate(pos[|pos| - 2], bufferSize, |file|), pos[|pos| - 1]))
  }

  /** Chained boundaries are ordered, stay inside the body and are aligned. */
  lemma {:induction false} ChainFacts(file: seq<byte>, bufferSize: int, pos: seq<int>)
    requires Chain(file, bufferSize, pos) && 0 <= pos[0] <= |file| && bufferSize >= 0
    ensures forall i, j :: 0 <= i <= j < |pos| ==> pos[i] <= pos[j]
    ensures forall i :: 0 <= i < |pos| ==> pos[0] <= pos[i] <= |file|
    ensures forall i :: 0 < i < |pos| ==> Aligned(file, pos[i])
    ensures forall i :: 0 < i < |pos| ==> Snapped(file, Candidate(pos[i - 1], bufferSize, |file|), pos[i])
    decreases |pos|
  {
    if |pos| > 1 {
      var init := pos[..|pos| - 1];
      ChainFacts(file, bufferSize, init);
      assert forall i :: 0 <= i < |init| ==> pos[i] == init[i];
    }
  }

  /** Appending a boundary snapped from the candidate after the last one extends the chain. */
  lemma ChainSnoc(file: seq<byte>, bufferSize: int, pos: seq<int>, p: int)
    requires Chain(file, bufferSize, pos)
    requires Snapped(file, Candidate(pos[|pos| - 1], bufferSize, |file|), p)
    ensures Chain(file, bufferSize, pos + [p])
  {
    assert (pos + [p])[..|pos|] == pos;
  }

  /** A chain of `T` boundaries closed by the file size satisfies `Boundaries`. */
  lemma BoundariesOfChain(file: seq<byte>, T: int, pos: seq<int>)
    requires T >= 1 && |pos| == T && 1 <= pos[0] <= |file|
    requires Chain(file, BufferSize(|file|, pos[0], T), pos)
    ensures Boundaries(file, T, pos + [|file|])
  {
    var all := pos + [|file|];
    assert all[..T] == pos;
    assert all[0] == pos[0];
  }

  /** Ordered positions followed by one past all of them are still ordered. */
  lemma SnocOrdered(pos: seq<int>, x: int)
    requires forall i, j :: 0 <= i <= j < |pos| ==> pos[i] <= pos[j]
    requires forall i :: 0 <= i < |pos| ==> pos[0] <= pos[i] <= x
    ensures forall i, j :: 0 <= i <= j <= |pos| ==> (pos + [x])[i] <= (pos + [x])[j]
    ensures forall i :: 0 <= i <= |pos| ==> (pos + [x])[0] <= (pos + [x])[i] <= x
  {
    var all := pos + [x];
    assert forall i :: 0 <= i < |pos| ==> all[i] == pos[i];
    forall i, j | 0 <= i <= j <= |pos|
      ensures all[i] <= all[j]
    {
      if j < |pos| {
        assert pos[i] <= pos[j];
      }
    }
  }

  /** Appending a position keeps the interior facts of the chain. */
  lemma SnocSnapped(file: seq<byte>, bufferSize: int, pos: seq<int>, x: int)
    requires forall i :: 0 < i < |pos| ==> Aligned(file, pos[i])
    requires forall i :: 0 < i < |pos| ==> Snapped(file, Candidate(pos[i - 1], bufferSize, |file|), pos[i])
    ensures forall i :: 0 < i < |pos| ==> Aligned(file, (pos + [x])[i])
    ensures forall i :: 0 < i < |pos| ==>
      Snapped(file, Candidate((pos + [x])[i - 1], bufferSize, |file|), (pos + [x])[i])
  {
    var all := pos + [x];
    assert forall i :: 0 <= i < |pos| ==> all[i] == pos[i];
  }

  /** The first aligned position after a start is unique. */
  lemma SnappedUnique(file: seq<byte>, start: int, p: int, p': int)
    requires Snapped(file, start, p) && Snapped(file, start, p')
    ensures p == p'
  {
  }

  /** A prefix of a chain is a chain. */
  lemma {:induction false} ChainPrefix(file: seq<byte>, bufferSize: int, pos: seq<int>, k: int)
    requires Chain(file, bufferSize, pos) && 1 <= k <= |pos|
    ensures Chain(file, bufferSize, pos[..k])
    decreases |pos|
  {
    if k < |pos| {
      ChainPrefix(file, bufferSize, pos[..|pos| - 1], k);
      assert pos[..|pos| - 1][..k] == pos[..k];
    } else {
      assert pos[..k] == pos;
    }
  }

  /** A chain is determined by its first boundary and its length. */
  lemma {:induction false} ChainUnique(file: seq<byte>, bufferSize: int, pos: seq<int>, pos': seq<int>)
    requires Chain(file, bufferSize, pos) && Chain(file, bufferSize, pos')
    requires |pos| == |pos'| && pos[0] == pos'[0]
    ensures pos == pos'
    decreases |pos|
  {
    var n := |pos|;
    if n > 1 {
      ChainUnique(file, bufferSize, pos[..n - 1], pos'[..n - 1]);
      SnappedUnique(file, Candidate(pos[n - 2], bufferSize, |file|), pos[n - 1], pos'[n - 1]);
      forall i | 0 <= i < n
        ensures pos[i] == pos'[i]
      {
        if i < n - 1 {
          assert pos[i] == pos[..n - 1][i] && pos'[i] == pos'[..n - 1][i];
        }
      }
    }
  }

  /**
   The boundary search for `T` threads has found the boundaries `pos` and
   computes the next candidate `pos[|pos| - 1] + bufferSize` past the largest
   int: the 32-bit sum wraps to a negative position, which escapes the clamp
   to the last byte.
   */
  ghost predicate StartWraps(file: seq<byte>, bodyStart: int, T: int, pos: seq<int>)
  {
    && T >= 1 && 1 <= |pos| < T && pos[0] == bodyStart
    && Chain(file, BufferSize(|file|, bodyStart, T), pos)
    && pos[|pos| - 1] + BufferSize(|file|, bodyStart, T) > IntMax
  }

  /** Some candidate of the boundary search wraps around. */
  ghost predicate BoundaryWraps(file: seq<byte>, bodyStart: int, T: int)
  {
    exists pos :: StartWraps(file, bodyStart, T, pos)
  }

  /**
   A file of 1,800,000,000 bytes: the header `\n0\n0\n`, then one line with no
   newline. For three threads `bufferSize` is 599,999,998, boundary 1 is
   snapped to the end of the file, and the candidate for boundary 2 is
   2,399,999,998, which a 32-bit sum wraps to a negative position.
   */
  lemma WrapExample(body: seq<byte>)
    requires |body| == 1_799_999_995 && NL !in body
    ensures HeaderOf(HeaderLines([], [48], [48]) + body) == Ok(Header(0, 0, 5))
    ensures BoundaryWraps(HeaderLines([], [48], [48]) + body, 5, 3)
  {
    var file := HeaderLines([], [48], [48]) + body;
    HeaderRoundTrip([], 0, 0, body);
    assert Ascii(Digits(0)) == [48];
    var bufferSize := BufferSize(|file|, 5, 3);
    assert bufferSize == 599_999_998;
    forall q | Candidate(5, bufferSize, |file|) <= q < |file| - 1
      ensures file[q] != NL
    {
      assert file[q] == body[q - 5];
    }
    assert Chain(file, bufferSize, [5, |file|]) by {
      assert [5, |file|][..1] == [5];
    }
    assert StartWraps(file, 5, 3, [5, |file|]);
  }

  /**
   The inner loop of the boundary search: from `start` it reads on to just
   past the next newline, or to the end of the file.
   */
  method SnapForward(file: seq<byte>, start: int) returns (p: int)
    requires 0 <= start < |file|
    ensures Snapped(file, start, p)
  {
    var size := |file|;
    p := start;
    var prev2 := file[p];
    p := p + 1;
    while prev2 != NL && p < size
      invariant start < p <= size && prev2 == file[p - 1]
      invariant forall q :: start <= q < p - 1 ==> file[q] != NL
      decreases size - p
    {
      prev2 := file[p];
      p := p + 1;
    }
  }

  /**
   The boundary loop of the constructor: boundary `i` is found by jumping
   `bufferSize` bytes past boundary `i - 1` (or to the last byte) and reading
   on to just past the next newline or to the end of the file; the last
   boundary is the file size.
   */
  method ComputeBoundaries(file: seq<byte>, bodyStart: int, T: int) returns (r: Result<seq<int>>)
    requires 1 <= bodyStart <= |file| && T >= 1
    ensures r.Ok? <==> !BoundaryWraps(file, bodyStart, T)
    ensures r.Err? ==> r.error == IllegalArgument
    ensures r.Ok? ==> Boundaries(file, T, r.value) && r.value[0] == bodyStart
  {
    var size := |file|;
    var bufferSize := BufferSize(size, bodyStart, T);
    var pos := [bodyStart];
    var i := 1;
    while i < T
      invariant 1 <= i <= T && |pos| == i && pos[0] == bodyStart
      invariant 0 <= pos[i - 1] <= size
      invariant Chain(file, bufferSize, pos)
      invariant forall j :: 0 <= j < i - 1 ==> pos[j] + bufferSize <= IntMax
    {
      // `startingPos[i - 1] + bufferSize` is a 32-bit sum
      if pos[i - 1] + bufferSize > IntMax {
        assert StartWraps(file, bodyStart, T, pos);
        return Err(IllegalArgument);
      }
      var start := Candidate(pos[i - 1], bufferSize, size);
      var p := SnapForward(file, start);
      ChainSnoc(file, bufferSize, pos, p);
      pos := pos + [p];
      i := i + 1;
    }
    NoWrapOfChain(file, bodyStart, T, pos);
    BoundariesOfChain(file, T, pos);
    return Ok(pos + [size]);
  }

  /** A full chain of `T` boundaries whose candidates all fit in an int rules out every wrap. */
  lemma NoWrapOfChain(file: seq<byte>, bodyStart: int, T: int, pos: seq<int>)
    requires T >= 1 && |pos| == T && pos[0] == bodyStart
    requires Chain(file, BufferSize(|file|, bodyStart, T), pos)
    requires forall j :: 0 <= j < T - 1 ==> pos[j] + BufferSize(|file|, bodyStart, T) <= IntMax
    ensures !BoundaryWraps(file, bodyStart, T)
  {
    var bufferSize := BufferSize(|file|, bodyStart, T);
    forall pos' | StartWraps(file, bodyStart, T, pos')
      ensures pos' == pos[..|pos'|]
    {
      ChainPrefix(file, bufferSize, pos, |pos'|);
      ChainUnique(file, bufferSize, pos', pos[..|pos'|]);
    }
  }

  // ---------------------------------------------------------------------------
  // Opening the file
  // ---------------------------------------------------------------------------

  /** The fields of an opened matrix. */
  datatype Csr = Csr(file: seq<byte>, numThreads: int, numVertices: int, numEdges: int, startingPos: seq<int>)

  predicate Opened(c: Csr)
  {
    Boundaries(c.file, c.numThreads, c.startingPos)
  }

  /**
   The constructor for `T` threads: the header scan, then `new int[T + 1]`
   (a negative size for `T < -1` and, by 32-bit wrap-around, for the largest
   int; no room for `startingPos[0]` when `T = -1`),
   the division by `T`, and the boundaries, whose search fails when a
   candidate start wraps around.
   */
  method Open(file: seq<byte>, T: int) returns (r: Result<Csr>)
    ensures r.Ok? <==> HeaderOf(file).Ok? && T >= 1 && T != IntMax && !BoundaryWraps(file, HeaderOf(file).value.bodyStart, T)
    ensures HeaderOf(file).Err? ==> r == Err(BufferUnderflow)
    ensures HeaderOf(file).Ok? && (T < -1 || T == IntMax) ==> r == Err(NegativeArraySize)
    ensures HeaderOf(file).Ok? && T == -1 ==> r == Err(IndexOutOfBounds)
    ensures HeaderOf(file).Ok? && T == 0 ==> r == Err(DivisionByZero)
    ensures HeaderOf(file).Ok? && 1 <= T < IntMax && BoundaryWraps(file, HeaderOf(file).value.bodyStart, T) ==>
      r == Err(IllegalArgument)
    ensures r.Ok? ==>
      var h := HeaderOf(file).value;
      && r.value.file == file && r.value.numThreads == T
      && r.value.numVertices == h.numVertices && r.value.numEdges == h.numEdges
      && Opened(r.value)
      && r.value.startingPos[0] == h.bodyStart
  {
    var header := ScanHeader(file);
    if header.Err? {
      return Err(header.error);
    }
    var h := header.value;
    // `new int[T + 1]` wraps to a negative size when T is the largest int
    if T + 1 < 0 || T == IntMax {
      return Err(NegativeArraySize);
    } else if T == -1 {
      return Err(IndexOutOfBounds);
    } else if T == 0 {
      return Err(DivisionByZero);
    }
    var pos := ComputeBoundaries(file, h.bodyStart, T);
    if pos.Err? {
      return Err(pos.error);
    }
    return Ok(Csr(file, T, h.numVertices, h.numEdges, pos.value));
  }

  // ---------------------------------------------------------------------------
  // Partitions
  // ---------------------------------------------------------------------------

  /** Positions that are ordered and inside the file. */
  predicate Ordered(file: seq<byte>, pos: seq<int>)
  {
    |pos| >= 1 && forall i, j :: 0 <= i <= j < |pos| ==> 0 <= pos[i] <= pos[j] <= |file|
  }

  /** The slices `file[pos[i]..pos[i + 1]]`. */
  function Slices(file: seq<byte>, pos: seq<int>): seq<seq<byte>>
    requires Ordered(file, pos)
  {
    seq(|pos| - 1, i requires 0 <= i < |pos| - 1 => file[pos[i]..pos[i + 1]])
  }

  /** A suffix of ordered positions is ordered, and its slices are the suffix of the slices. */
  lemma SlicesSuffix(file: seq<byte>, pos: seq<int>, j: nat)
    requires Ordered(file, pos) && j < |pos|
    ensures Ordered(file, pos[j..])
    ensures Slices(file, pos[j..]) == Slices(file, pos)[j..]
  {
    var tail := pos[j..];
    forall i, i' | 0 <= i <= i' < |tail|
      ensures 0 <= tail[i] <= tail[i'] <= |file|
    {
      assert tail[i] == pos[i + j] && tail[i'] == pos[i' + j];
    }
  }

  /** Consecutive slices put back together give the stretch from the first position to the last. */
  lemma {:induction false} SlicesFlatten(file: seq<byte>, pos: seq<int>)
    requires Ordered(file, pos)
    ensures Flatten(Slices(file, pos)) == file[pos[0]..pos[|pos| - 1]]
    decreases |pos|
  {
    if |pos| > 1 {
      var tail := pos[1..];
      SlicesSuffix(file, pos, 1);
      SlicesFlatten(file, tail);
      assert file[pos[0]..pos[1]] + file[pos[1]..pos[|pos| - 1]] == file[pos[0]..pos[|pos| - 1]];
    }
  }

  /**
   A slice ends a line when the position after it is just past a newline,
   and nothing follows it when that position is the end of the file.
   */
  lemma SliceAtLineEnd(file: seq<byte>, pos: seq<int>, i: nat)
    requires Ordered(file, pos) && i + 1 < |pos| && Aligned(file, pos[i + 1])
    ensures EndsLine(Slices(file, pos)[i]) || Flatten(Slices(file, pos)[i + 1..]) == []
  {
    if pos[i + 1] == |file| {
      SlicesSuffix(file, pos, i + 1);
      SlicesFlatten(file, pos[i + 1..]);
    }
  }

  /** The body of the file: everything after the header. */
  function Body(c: Csr): seq<byte>
    requires Opened(c)
  {
    c.file[c.startingPos[0]..]
  }

  /** The byte range of each thread: partition `i` is `[startingPos[i], startingPos[i + 1])`. */
  function Partitions(c: Csr): (parts: seq<seq<byte>>)
    requires Opened(c)
  {
    OpenedOrdered(c);
    Slices(c.file, c.startingPos)
  }

  lemma OpenedOrdered(c: Csr)
    requires Opened(c)
    ensures Ordered(c.file, c.startingPos)
  {
    BoundariesFacts(c.file, c.numThreads, c.startingPos);
  }

  /** There is one partition per thread and together they are exactly the body. */
  lemma PartitionsCover(c: Csr)
    requires Opened(c)
    ensures |Partitions(c)| == c.numThreads
    ensures Flatten(Partitions(c)) == Body(c)
  {
    OpenedOrdered(c);
    SlicesFlatten(c.file, c.startingPos);
  }

  /** `a` is empty or ends with a newline. */
  predicate EndsLine(a: seq<byte>)
  {
    a == [] || a[|a| - 1] == NL
  }

  /** Every part but the last ends a line, unless nothing follows it. */
  predicate AtLineEnds(parts: seq<seq<byte>>)
  {
    forall i :: 0 <= i < |parts| - 1 ==> EndsLine(parts[i]) || Flatten(parts[i + 1..]) == []
  }

  /** The partitions are cut at line ends, because the interior boundaries are aligned. */
  lemma PartitionsAtLineEnds(c: Csr)
    requires Opened(c)
    ensures AtLineEnds(Partitions(c))
  {
    var file, pos, T := c.file, c.startingPos, c.numThreads;
    BoundariesFacts(file, T, pos);
    OpenedOrdered(c);
    forall i | 0 <= i < T - 1
      ensures EndsLine(Slices(file, pos)[i]) || Flatten(Slices(file, pos)[i + 1..]) == []
    {
      SliceAtLineEnd(file, pos, i);
    }
  }

  // ---------------------------------------------------------------------------
  // The tokenizer of ThreadSimple
  // ---------------------------------------------------------------------------

  predicate IsDelim(b: byte)
  {
    b == SP || b == NL
  }

  /**
   `(char) b` for the signed byte the buffer returns: bytes from 128 on are
   negative and sign-extend to the characters U+FF80 to U+FFFF.
   */
  function ToChar(b: byte): (c: char)
    ensures c == ' ' <==> b == SP
    ensures c == '\n' <==> b == NL
    ensures c as int % 0x1_0000 == (Signed(b) + 0x1_0000) % 0x1_0000
  {
    if b < 128 then b as char else (0xFF00 + b) as char
  }

  function ToChars(bs: seq<byte>): (s: string)
    ensures |s| == |bs|
  {
    seq(|bs|, i requires 0 <= i < |bs| => ToChar(bs[i]))
  }

  /** The position of the first space or newline in `p`, or `|p|` when there is none. */
  function Delimiter(p: seq<byte>): (k: nat)
    ensures k <= |p|
    ensures k < |p| ==> IsDelim(p[k])
    ensures forall i :: 0 <= i < k ==> !IsDelim(p[i])
  {
    if p == [] then 0 else if IsDelim(p[0]) then 0 else 1 + Delimiter(p[1..])
  }

  /**
   `ThreadSimple.run` over the bytes `p` left in its buffer. Each round of the
   outer loop reads the source token up to the first space or newline; a
   newline ends the line there, a space starts the destination loop. Reading
   past the end of the buffer is a buffer underflow, and a token that does
   not parse (the empty token included) a number format error. A run that
   raises nothing has read whole lines.
   */
  function Tokenize(p: seq<byte>): (r: Run)
    ensures r.error.None? ==> EndsLine(p)
    decreases |p|, 1
  {
    if p == [] then Run([], None)
    else
      var k := Delimiter(p);
      if k == |p| then Run([], Some(BufferUnderflow))
      else
        var source := ParseInt(ToChars(p[..k]));
        if source.None? then Run([], Some(NumberFormat))
        else if p[k] == NL then Tokenize(p[k + 1..])
        else Dests(source.value, p[k + 1..])
  }

  /**
   The destination loop of one line, with `q` the bytes after the space that
   ended the previous token: each destination token is ended by a space or a
   newline and is relaxed with `source` as soon as it is parsed.
   */
  function Dests(source: int, q: seq<byte>): (r: Run)
    ensures r.error.None? ==> q != [] && q[|q| - 1] == NL
    decreases |q|, 0
  {
    var k := Delimiter(q);
    if k == |q| then Run([], Some(BufferUnderflow))
    else
      var d := ParseInt(ToChars(q[..k]));
      if d.None? then Run([], Some(NumberFormat))
      else Prepend([(source, d.value)], if q[k] == NL then Tokenize(q[k + 1..]) else Dests(source, q[k + 1..]))
  }

  /** `Delimiter` finds the first delimiter. */
  lemma DelimiterAt(p: seq<byte>, k: nat)
    requires k < |p| && IsDelim(p[k])
    requires forall i :: 0 <= i < k ==> !IsDelim(p[i])
    ensures Delimiter(p) == k
  {
  }

  lemma DelimiterAppend(a: seq<byte>, b: seq<byte>)
    requires Delimiter(a) < |a|
    ensures Delimiter(a + b) == Delimiter(a)
  {
    var k := Delimiter(a);
    assert forall i :: 0 <= i <= k ==> (a + b)[i] == a[i];
    DelimiterAt(a + b, k);
  }

  /** Bytes that end a line hold their first token whole, whatever follows them. */
  lemma FirstTokenAppend(a: seq<byte>, b: seq<byte>)
    requires a != [] && a[|a| - 1] == NL
    ensures Delimiter(a) < |a| && Delimiter(a + b) == Delimiter(a)
    ensures (a + b)[..Delimiter(a)] == a[..Delimiter(a)]
    ensures (a + b)[Delimiter(a) + 1..] == a[Delimiter(a) + 1..] + b
    ensures EndsLine(a[Delimiter(a) + 1..])
    ensures a[Delimiter(a)] == SP ==> a[Delimiter(a) + 1..] != []
  {
    var k := Delimiter(a);
    assert IsDelim(a[|a| - 1]);
    DelimiterAppend(a, b);
    assert (a + b)[..k] == a[..k];
    assert (a + b)[k + 1..] == a[k + 1..] + b;
  }

  /** On bytes `a` that end a line, the first token of `a + b` is the first token of `a`. */
  lemma TokenizeHead(a: seq<byte>, b: seq<byte>)
    requires a != [] && a[|a| - 1] == NL
    ensures var k := Delimiter(a);
      var source := ParseInt(ToChars(a[..k]));
      Tokenize(a + b) ==
        if source.None? then Run([], Some(NumberFormat))
        else if a[k] == NL then Tokenize(a[k + 1..] + b)
        else Dests(source.value, a[k + 1..] + b)
  {
    FirstTokenAppend(a, b);
  }

  lemma DestsHead(source: int, q: seq<byte>, b: seq<byte>)
    requires q != [] && q[|q| - 1] == NL
    ensures var k := Delimiter(q);
      var d := ParseInt(ToChars(q[..k]));
      Dests(source, q + b) ==
        if d.None? then Run([], Some(NumberFormat))
        else Prepend([(source, d.value)],
          if q[k] == NL then Tokenize(q[k + 1..] + b) else Dests(source, q[k + 1..] + b))
  {
    FirstTokenAppend(q, b);
  }

  /** One step of the tokenizer on bytes that end a line. */
  lemma TokenizeUnfold(a: seq<byte>)
    requires a != [] && a[|a| - 1] == NL
    ensures var k := Delimiter(a);
      var source := ParseInt(ToChars(a[..k]));
      k < |a| && Tokenize(a) ==
        if source.None? then Run([], Some(NumberFormat))
        else if a[k] == NL then Tokenize(a[k + 1..])
        else Dests(source.value, a[k + 1..])
    ensures EndsLine(a[Delimiter(a) + 1..])
    ensures a[Delimiter(a)] == SP ==> a[Delimiter(a) + 1..] != []
  {
    assert IsDelim(a[|a| - 1]);
  }

  /** One step of the destination loop on bytes that end a line. */
  lemma DestsUnfold(source: int, q: seq<byte>)
    requires q != [] && q[|q| - 1] == NL
    ensures var k := Delimiter(q);
      var d := ParseInt(ToChars(q[..k]));
      k < |q| && Dests(source, q) ==
        if d.None? then Run([], Some(NumberFormat))
        else Prepend([(source, d.value)], if q[k] == NL then Tokenize(q[k + 1..]) else Dests(source, q[k + 1..]))
    ensures EndsLine(q[Delimiter(q) + 1..])
    ensures q[Delimiter(q)] == SP ==> q[Delimiter(q) + 1..] != []
  {
    assert IsDelim(q[|q| - 1]);
  }

  /**
   The first token of `a + b` and of `a` alone lead to the same continuation:
   `rest` is what follows the token in `a`, `source` its value and `nl` whether
   a newline ended it.
   */
  lemma TokenizeAppendStep(a: seq<byte>, b: seq<byte>) returns (rest: seq<byte>, source: Option<int>, nl: bool)
    requires a != [] && a[|a| - 1] == NL
    ensures |rest| < |a| && EndsLine(rest) && (!nl ==> rest != [])
    ensures source.None? ==> Tokenize(a + b) == Then(Tokenize(a), Tokenize(b))
    ensures source.Some? && nl ==> Tokenize(a + b) == Tokenize(rest + b) && Tokenize(a) == Tokenize(rest)
    ensures source.Some? && !nl ==>
      Tokenize(a + b) == Dests(source.value, rest + b) && Tokenize(a) == Dests(source.value, rest)
  {
    var k := Delimiter(a);
    TokenizeHead(a, b);
    TokenizeUnfold(a);
    rest, source, nl := a[k + 1..], ParseInt(ToChars(a[..k])), a[k] == NL;
  }

  /** The first destination of `q + b` and of `q` alone lead to the same continuation. */
  lemma DestsAppendStep(source: int, q: seq<byte>, b: seq<byte>) returns (rest: seq<byte>, d: Option<int>, nl: bool)
    requires q != [] && q[|q| - 1] == NL
    ensures |rest| < |q| && EndsLine(rest) && (!nl ==> rest != [])
    ensures d.None? ==> Dests(source, q + b) == Then(Dests(source, q), Tokenize(b))
    ensures d.Some? && nl ==>
      Dests(source, q + b) == Prepend([(source, d.value)], Tokenize(rest + b))
      && Dests(source, q) == Prepend([(source, d.value)], Tokenize(rest))
    ensures d.Some? && !nl ==>
      Dests(source, q + b) == Prepend([(source, d.value)], Dests(source, rest + b))
      && Dests(source, q) == Prepend([(source, d.value)], Dests(source, rest))
  {
    var k := Delimiter(q);
    DestsHead(source, q, b);
    DestsUnfold(source, q);
    rest, d, nl := q[k + 1..], ParseInt(ToChars(q[..k])), q[k] == NL;
  }

  /**
   The tokenizer is line-local: on bytes that end a line it finishes exactly
   where they end, so whatever follows is tokenized on its own.
   */
  lemma {:induction false} TokenizeAppend(a: seq<byte>, b: seq<byte>)
    requires EndsLine(a)
    ensures Tokenize(a + b) == Then(Tokenize(a), Tokenize(b))
    decreases |a|, 2
  {
    if a == [] {
      assert a + b == b;
      assert Tokenize(a) == Run([], None);
      EmptyThen(Tokenize(b));
    } else {
      TokenizeAppendLine(a, b);
    }
  }

  lemma {:induction false} TokenizeAppendLine(a: seq<byte>, b: seq<byte>)
    requires a != [] && a[|a| - 1] == NL
    ensures Tokenize(a + b) == Then(Tokenize(a), Tokenize(b))
    decreases |a|, 1
  {
    var rest, source, nl := TokenizeAppendStep(a, b);
    if source.Some? {
      if nl {
        TokenizeAppend(rest, b);
      } else {
        DestsAppend(source.value, rest, b);
      }
    }
  }

  lemma {:induction false} DestsAppend(source: int, q: seq<byte>, b: seq<byte>)
    requires q != [] && q[|q| - 1] == NL
    ensures Dests(source, q + b) == Then(Dests(source, q), Tokenize(b))
    decreases |q|, 0
  {
    var rest, d, nl := DestsAppendStep(source, q, b);
    if d.Some? {
      if nl {
        TokenizeAppend(rest, b);
        PrependThen([(source, d.value)], Tokenize(rest), Tokenize(b));
      } else {
        DestsAppend(source, rest, b);
        PrependThen([(source, d.value)], Dests(source, rest), Tokenize(b));
      }
    }
  }

  /** The tokenizer run on each part on its own. */
  function TokenRuns(parts: seq<seq<byte>>): (runs: seq<Run>)
    ensures |runs| == |parts|
  {
    seq(|parts|, i requires 0 <= i < |parts| => Tokenize(parts[i]))
  }

  /**
   Parts cut at line ends tokenize, one after another, exactly as their
   concatenation does.
   */
  lemma {:induction false} TokenizeConcat(parts: seq<seq<byte>>)
    requires AtLineEnds(parts)
    ensures ThenAll(TokenRuns(parts)) == Tokenize(Flatten(parts))
    decreases |parts|
  {
    if parts != [] {
      var rest := parts[1..];
      assert TokenRuns(parts)[1..] == TokenRuns(rest);
      forall i | 0 <= i < |rest| - 1
        ensures EndsLine(rest[i]) || Flatten(rest[i + 1..]) == []
      {
        assert rest[i] == parts[i + 1] && rest[i + 1..] == parts[i + 2..];
      }
      TokenizeConcat(rest);
      if |parts| == 1 || !EndsLine(parts[0]) {
        assert Flatten(rest) == [];
        assert Flatten(parts) == parts[0];
        ThenEmpty(Tokenize(parts[0]));
      } else {
        TokenizeAppend(parts[0], Flatten(rest));
      }
    }
  }

  /**
   `edgemap`: one thread per partition, each running the tokenizer over its
   own byte range. The threads are independent, so the result is one run per
   partition; an exception ends only the thread that raised it.
   */
  function StreamEdgeMap(c: Csr): (runs: seq<Run>)
    requires Opened(c)
    ensures |runs| == c.numThreads
  {
    TokenRuns(Partitions(c))
  }

  /**
   Partitioning loses and duplicates nothing: the threads' runs, taken in
   partition order, are the run of the tokenizer over the whole body. In
   particular every thread finishes without an exception exactly when the
   whole body tokenizes, and then the threads' relax calls together are the
   body's relax calls, as a multiset and even in partition order.
   */
  lemma StreamEdgeMapComplete(c: Csr)
    requires Opened(c)
    ensures ThenAll(StreamEdgeMap(c)) == Tokenize(Body(c))
    ensures NoErrors(StreamEdgeMap(c)) <==> Tokenize(Body(c)).error.None?
    ensures NoErrors(StreamEdgeMap(c)) ==> Flatten(Traces(StreamEdgeMap(c))) == Tokenize(Body(c)).trace
    ensures NoErrors(StreamEdgeMap(c)) ==>
      multiset(Flatten(Traces(StreamEdgeMap(c)))) == multiset(Tokenize(Body(c)).trace)
  {
    PartitionsCover(c);
    PartitionsAtLineEnds(c);
    TokenizeConcat(Partitions(c));
    ThenAllNoErrors(StreamEdgeMap(c));
  }

  // ---------------------------------------------------------------------------
  // Well-formed bodies
  // ---------------------------------------------------------------------------

  /** The ASCII digits of `n`, most significant first. */
  function DigitBytes(n: nat): (bs: seq<byte>)
    ensures bs != []
  {
    (if n < 10 then [] else DigitBytes(n / 10)) + [48 + n % 10]
  }

  /** The bytes of `Integer.toString(v)`. */
  function DecimalBytes(v: int): (bs: seq<byte>)
    ensures bs != []
  {
    if v < 0 then [45] + DigitBytes(-v) else DigitBytes(v)
  }

  lemma {:induction false} DigitBytesChars(n: nat)
    ensures ToChars(DigitBytes(n)) == Digits(n)
    ensures forall i :: 0 <= i < |DigitBytes(n)| ==> 48 <= DigitBytes(n)[i] < 58
  {
    if n >= 10 {
      DigitBytesChars(n / 10);
    }
    var bs := DigitBytes(n);
    assert forall i :: 0 <= i < |bs| ==> ToChars(bs)[i] == Digits(n)[i];
  }

  lemma ToCharsAppend(a: seq<byte>, b: seq<byte>)
    ensures ToChars(a + b) == ToChars(a) + ToChars(b)
  {
    assert forall i :: 0 <= i < |a + b| ==> ToChars(a + b)[i] == (ToChars(a) + ToChars(b))[i];
  }

  /** Read as characters, the bytes of the decimal text are the decimal text. */
  lemma DecimalBytesChars(v: int)
    ensures ToChars(DecimalBytes(v)) == DecimalString(v)
    ensures forall i :: 0 <= i < |DecimalBytes(v)| ==> !IsDelim(DecimalBytes(v)[i])
  {
    if v < 0 {
      DigitBytesChars(-v);
      ToCharsAppend([45], DigitBytes(-v));
      assert ToChars([45]) == "-";
      var bs := DecimalBytes(v);
      forall i | 0 <= i < |bs|
        ensures !IsDelim(bs[i])
      {
        if i > 0 {
          assert bs[i] == DigitBytes(-v)[i - 1];
        }
      }
    } else {
      DigitBytesChars(v);
    }
  }

  /** The decimal text of a 32-bit value is a token: non-empty, no delimiter, and it parses back. */
  lemma DecimalBytesToken(v: int)
    requires IntMin <= v <= IntMax
    ensures forall i :: 0 <= i < |DecimalBytes(v)| ==> !IsDelim(DecimalBytes(v)[i])
    ensures ParseInt(ToChars(DecimalBytes(v))) == Some(v)
  {
    DecimalBytesChars(v);
    ParseDecimalString(v);
  }

  /** A token ended by the delimiter `d`, with `rest` after it. */
  lemma TokenAt(v: int, d: byte, rest: seq<byte>)
    requires IntMin <= v <= IntMax && IsDelim(d)
    ensures var p, k := DecimalBytes(v) + [d] + rest, |DecimalBytes(v)|;
      && Delimiter(p) == k && p[..k] == DecimalBytes(v) && p[k] == d && p[k + 1..] == rest
      && ParseInt(ToChars(p[..k])) == Some(v)
  {
    var p, k := DecimalBytes(v) + [d] + rest, |DecimalBytes(v)|;
    DecimalBytesToken(v);
    assert p[..k] == DecimalBytes(v);
    assert p[k + 1..] == rest;
    assert forall i :: 0 <= i < k ==> p[i] == DecimalBytes(v)[i];
    DelimiterAt(p, k);
  }

  /** One line of a graph file: a source and its destinations. */
  datatype Record = Record(source: int, dests: seq<int>)

  predicate RecordFits(r: Record)
  {
    IntMin <= r.source <= IntMax && forall i :: 0 <= i < |r.dests| ==> IntMin <= r.dests[i] <= IntMax
  }

  /** The destinations of a line, each after a space, then the newline. */
  function DestBytes(dests: seq<int>): seq<byte>
  {
    if dests == [] then [NL] else [SP] + DecimalBytes(dests[0]) + DestBytes(dests[1..])
  }

  /** The line `s d1 ... dk` followed by a newline. */
  function LineBytes(r: Record): seq<byte>
  {
    DecimalBytes(r.source) + DestBytes(r.dests)
  }

  /** The relax calls a line stands for. */
  function LineEdges(r: Record): Trace
  {
    seq(|r.dests|, i requires 0 <= i < |r.dests| => (r.source, r.dests[i]))
  }

  function Encode(records: seq<Record>): seq<byte>
  {
    if records == [] then [] else LineBytes(records[0]) + Encode(records[1..])
  }

  function AllEdges(records: seq<Record>): Trace
  {
    if records == [] then [] else LineEdges(records[0]) + AllEdges(records[1..])
  }

  /** The destination loop over a well-formed token ended by `d`. */
  lemma DestsToken(source: int, v: int, d: byte, rest: seq<byte>)
    requires IntMin <= v <= IntMax && IsDelim(d)
    ensures Dests(source, DecimalBytes(v) + [d] + rest) ==
      Prepend([(source, v)], if d == NL then Tokenize(rest) else Dests(source, rest))
  {
    TokenAt(v, d, rest);
  }

  /** The outer loop over a well-formed source token ended by `d`. */
  lemma TokenizeToken(v: int, d: byte, rest: seq<byte>)
    requires IntMin <= v <= IntMax && IsDelim(d)
    ensures Tokenize(DecimalBytes(v) + [d] + rest) == (if d == NL then Tokenize(rest) else Dests(v, rest))
  {
    TokenAt(v, d, rest);
  }

  lemma LineEdgesCons(source: int, dests: seq<int>)
    requires dests != []
    ensures LineEdges(Record(source, dests)) == [(source, dests[0])] + LineEdges(Record(source, dests[1..]))
  {
  }

  /** The last destination of a line. */
  lemma DestsOfLastDest(source: int, v: int, rest: seq<byte>)
    requires IntMin <= v <= IntMax
    ensures Dests(source, DecimalBytes(v) + DestBytes([]) + rest) ==
      Prepend(LineEdges(Record(source, [v])), Tokenize(rest))
  {
    DestsToken(source, v, NL, rest);
    assert LineEdges(Record(source, [v])) == [(source, v)];
  }

  lemma {:induction false} DestsOfLine(source: int, dests: seq<int>, rest: seq<byte>)
    requires dests != [] && forall i :: 0 <= i < |dests| ==> IntMin <= dests[i] <= IntMax
    ensures Dests(source, DecimalBytes(dests[0]) + DestBytes(dests[1..]) + rest) ==
      Prepend(LineEdges(Record(source, dests)), Tokenize(rest))
    decreases |dests|
  {
    var tail := dests[1..];
    if tail == [] {
      assert dests == [dests[0]];
      DestsOfLastDest(source, dests[0], rest);
    } else {
      var after := DecimalBytes(tail[0]) + DestBytes(tail[1..]) + rest;
      Regroup(DecimalBytes(dests[0]), [SP], DecimalBytes(tail[0]), DestBytes(tail[1..]), rest);
      DestsToken(source, dests[0], SP, after);
      DestsOfLine(source, tail, rest);
      PrependPrepend([(source, dests[0])], LineEdges(Record(source, tail)), Tokenize(rest));
      LineEdgesCons(source, dests);
    }
  }

  lemma Regroup(a: seq<byte>, x: seq<byte>, b: seq<byte>, c: seq<byte>, r: seq<byte>)
    ensures a + (x + b + c) + r == a + x + (b + c + r)
  {
  }

  /** A well-formed line relaxes its source with each destination in turn, then the tokenizer goes on. */
  lemma TokenizeLine(r: Record, rest: seq<byte>)
    requires RecordFits(r)
    ensures Tokenize(LineBytes(r) + rest) == Prepend(LineEdges(r), Tokenize(rest))
  {
    if r.dests == [] {
      assert LineBytes(r) + rest == DecimalBytes(r.source) + [NL] + rest;
      TokenizeToken(r.source, NL, rest);
    } else {
      var after := DecimalBytes(r.dests[0]) + DestBytes(r.dests[1..]) + rest;
      Regroup(DecimalBytes(r.source), [SP], DecimalBytes(r.dests[0]), DestBytes(r.dests[1..]), rest);
      TokenizeToken(r.source, SP, after);
      DestsOfLine(r.source, r.dests, rest);
    }
  }

  /** A line with a source and no destination makes no relax call. */
  lemma SourceOnlyLine(source: int, rest: seq<byte>)
    requires IntMin <= source <= IntMax
    ensures Tokenize(DecimalBytes(source) + [NL] + rest) == Tokenize(rest)
  {
    TokenizeLine(Record(source, []), rest);
    assert LineBytes(Record(source, [])) + rest == DecimalBytes(source) + [NL] + rest;
  }

  /** Well-formed lines tokenize without an exception into their edges, lines in order. */
  lemma {:induction false} TokenizeEncode(records: seq<Record>)
    requires forall i :: 0 <= i < |records| ==> RecordFits(records[i])
    ensures Tokenize(Encode(records)) == Run(AllEdges(records), None)
  {
    if records != [] {
      TokenizeEncode(records[1..]);
      TokenizeLine(records[0], Encode(records[1..]));
    }
  }

  /**
   On a body of well-formed lines no thread raises anything and the threads
   together make the relax calls of all the lines, each exactly once.
   */
  lemma StreamEdgeMapOfRecords(c: Csr, records: seq<Record>)
    requires Opened(c) && Body(c) == Encode(records)
    requires forall i :: 0 <= i < |records| ==> RecordFits(records[i])
    ensures NoErrors(StreamEdgeMap(c))
    ensures Flatten(Traces(StreamEdgeMap(c))) == AllEdges(records)
  {
    TokenizeEncode(records);
    StreamEdgeMapComplete(c);
  }

  // ---------------------------------------------------------------------------
  // The traversals the streaming matrix leaves empty
  // ---------------------------------------------------------------------------

  /** `calculateOutDegree` is left unimplemented: the degree array comes back unchanged. */
  function StreamCalculateOutDegree(c: Csr, outdeg: seq<int>): (r: seq<int>)
    ensures r == outdeg
  {
    outdeg
  }

  /** `ranged_edgemap` is left unimplemented: no relax call and no exception, whatever the range. */
  function StreamRangedEdgeMap(c: Csr, first: int, last: int): (r: Run)
    ensures r.trace == [] && r.error.None?
  {
    Run([], None)
  }
}
